=== FILE: README.md ===
# IA Threat Modeling — a Dafny model of the analysis pipeline

The application takes a user from an architecture description, and optionally a diagram image, to a STRIDE threat model in three model-backed stages:

1. describe the architecture;
2. derive a data-flow diagram (DFD);
3. list the threats.

After the last stage the user can accept or reject each threat and export a PDF report. This project models the sequential logic of that core as pure functions over immutable datatypes, and proves what the code promises about it.

| module | file | models |
|---|---|---|
| `Wrappers` | wrappers.dfy | `Option` / `Result` |
| `Js` | js.dfy | thrown values, `String.prototype.trim`, ASCII character classes |
| `Types` | types.dfy | the enums, the `Threat` record and the translation maps of `types.ts` |
| `Retry` | retry.dfy | `retry` in `server.js`: exponential backoff keyed on three capacity error names |
| `JsonExtract` | json_extract.dfy | `extractAndParseJson` in `server.js` |
| `Server` | server.dfy | the `/api/generate` handler: prompt check, message assembly, retry, JSON coercion, status codes |
| `BedrockService` | bedrock_service.dfy | `callBedrockApi` and the three stage calls of `services/bedrockService.ts` |
| `Controller` | controller.dfy | the step machine and handlers of `App.tsx` over one state record |
| `PdfLayout` | pdf_layout.dfy | the layout arithmetic of `handleExportPdf` in `App.tsx` |
| `Stepper` | stepper.dfy | `components/Stepper.tsx` |
| `ThreatCard` | threat_card.dfy | `components/ThreatAnalysisCard.tsx` |

Everything the code cannot compute for itself is a parameter:

- **The model call.** Its outcomes are a function `nat -> Outcome` giving the result of the k-th invocation. `retry` records the delays it would sleep rather than sleeping.
- **`JSON.parse`.** It is an oracle `string -> Result`, and so is `JSON.stringify` on the server.
- **The HTTP transport.** The client sees it as a function from request to response. `BedrockService.ArchitectureAnswerReachesCaller` and `BedrockService.ThrottlingReachesCaller` plug the server model in as that transport.
- **Image preprocessing.** The outcome of `compressImage` and `fileToBase64` is part of the image file value (`Controller.Encoding`).
- **jsPDF text metrics.** The line count of `splitTextToSize` and the width from `getTextWidth` are an oracle (`PdfLayout.Metrics`).
- **The image load.** The pixel size of the loaded diagram, or the load error, is an input (`PdfLayout.ImageLoad`).
- **The date.** The report date is a string parameter.

The PDF document is modelled as a log of what was drawn: each label, paragraph, picture and frame is tagged with its page. Layout lengths are millimetres, as exact reals.

`retry` with its default of 5 retries invokes the model up to **6** times: the first call plus 5 retries. It sleeps 1000, 2000, 4000, 8000 and 16000 ms between them, 31000 ms in all. With `retries = n`, a call that is throttled every time is invoked n+1 times and sleeps `delay * (2^n - 1)` ms in total (`Retry.PermanentThrottling`, `Retry.DefaultSchedule`).

A threat's `stride_category` is the raw string of the model's JSON answer, and nothing checks it against the enum. The card's colour and icon switches send `Unknown` and every string outside the enum to their default branches. The translation lookup gives `undefined` for such a string, leaving aside the property names every JavaScript object inherits (see "## Left out"). The card then shows no label, and the PDF prints `Categoria: undefined`. The threat-modelling prompt (`prompts/threatModelerPrompt.ts`) asks for `Information_Disclosure`, `Denial_of_Service` and `Elevation_of_Privilege` with underscores, and these are not enum values (`ThreatCard.PromptCategoryNamesFallBack`, `PdfLayout.PromptCategoryNamesPrintUndefined`).

The threat's `status` is kept as a raw string in the same way. Only the exact string `Pending` gets the accept and reject buttons. Any status outside the enum gets the default card style, a red badge with no caption and no buttons, so it cannot be decided from the card, and the PDF prints `Status: undefined`. The prompt is written in Portuguese, so `Pendente` is a plausible answer (`ThreatCard.TranslatedStatusCannotBeDecided`).

A failed stage sets `error` and clears `isLoading`. The step and the stage outputs stay as they were (`Controller.HandlePrimaryAction`).

## Model

| member | source | states |
|---|---|---|
| Types.StepOrdinal | types.ts:28-33 | the numeric value of a step lies in 0..3 |
| Types.StepOfOrdinal | types.ts:28-33 | a number names a step exactly when it lies in 0..3 |
| Types.StepOrdinalRoundTrip | types.ts:28-33 | step → number → step is the identity; number → step → number is the identity on 0..3 |
| Types.StepOrderIsStrict | types.ts:28-33 | INPUT = 0 < REVIEW_DESCRIPTION < REVIEW_DFD < RESULTS = 3 |
| Types.AppTypeValuesSuffixFree | types.ts:11-18 | no application-type value is a suffix of another; this is what lets a prompt be read back |
| Types.ClassificationValuesSuffixFree | types.ts:20-26 | no data-classification value is a suffix of another |
| Types.TranslationsAreTotal | types.ts:69-100 | each of the four translation maps has an entry for every value of its enum |
| Types.CategoryOf | types.ts:1-9 | the enum member whose value a raw category string is, and none exactly when no member has that value |
| Types.CategoryOfInvertsValue | types.ts:1-9 | reading a member's value back gives the member |
| Types.CategoryLabel | types.ts:69-77 | the translation lookup on a raw category string: `undefined` exactly when the string is no member's value, otherwise that member's translation |
| Types.StatusOf | types.ts:35-39 | the status whose value a raw status string is, and none exactly when no status has that value |
| Types.StatusOfInvertsValue | types.ts:35-39 | reading a status's value back gives the status |
| Types.StatusLabelOf | types.ts:96-100 | the translation lookup on a raw status string: `undefined` exactly when the string is no status's value, otherwise that status's translation |
| Types.StatusLabelsDistinct | types.ts:96-100 | distinct threat statuses have distinct Portuguese labels |
| Js.Trim | App.tsx:44 | the trimmed string is empty iff the input is all whitespace; otherwise it neither starts nor ends with whitespace |
| Js.TrimEmptyIffAllWhitespace | App.tsx:44 | trimming the start, then the end, gives the empty string exactly for all-whitespace input |
| Js.ToLowerAscii | App.tsx:423 | upper-case ASCII letters map to the lower-case letter 32 code points up; every other character is unchanged |
| Retry.RetryFrom | server.js:41-53 | between 1 and retries+1 calls; every call before the last had a capacity error; the result is the last call's outcome; one sleep per retry, following the doubling schedule; a capacity error is returned only once the budget is spent |
| Retry.NonTransientErrorIsRethrownAtOnce | server.js:45-51 | an error that is not ThrottlingException, TooManyRequestsException or ProvisionedThroughputExceededException is rethrown after exactly one call with no sleep |
| Retry.FirstSuccessIsReturned | server.js:42-48 | when the first j calls are throttled and call j succeeds within the budget, its value is returned after j+1 calls and j sleeps |
| Retry.Backoff | server.js:47-48 | the sleep schedule has one entry per retry |
| Retry.BackoffDoubles | server.js:47-48 | the k-th sleep is `delay * 2^k` (counting from 0) |
| Retry.BackoffTotal | server.js:47-48 | n sleeps add up to `delay * (2^n - 1)` |
| Retry.PermanentThrottling | server.js:41-50 | a call throttled every time is invoked retries+1 times; it sleeps the full schedule (total `delay * (2^retries - 1)`); the last error is rethrown |
| Retry.RetryDefault | server.js:149 | `retry` with its defaults: 1 to 6 calls; the sleeps follow the doubling schedule from 1000 ms; the result is the last call's outcome; every earlier call was throttled |
| Retry.DefaultSchedule | server.js:41-53 | with the defaults: 6 calls, sleeps [1000, 2000, 4000, 8000, 16000], 31000 ms in all |
| JsonExtract.IndexOf | server.js:58 | -1 iff the character is absent; otherwise the position of its first occurrence |
| JsonExtract.LastIndexOf | server.js:59 | -1 iff the character is absent; otherwise the position of its last occurrence |
| JsonExtract.SpanIffBracesInOrder | server.js:58-61 | an object span exists iff there is a `{`, there is a `}`, and the last `}` is not before the first `{` |
| JsonExtract.ExtractObjectText | server.js:58-65 | fails with the fixed message exactly when there is no span; otherwise yields a text that starts with `{` and ends with `}` |
| JsonExtract.ExtractionSplitsText | server.js:58-65 | the extracted text sits in the input between a prefix without `{` and a suffix without `}` |
| JsonExtract.ExtractionIsTheOutermostSpan | server.js:58-65 | conversely, any such split of the input is the one extracted |
| JsonExtract.ExtractAndParse | server.js:57-71 | no span gives the fixed error; otherwise the parser's value is returned; a parse error becomes an error that starts with the fixed prefix and ends with the extracted text |
| JsonExtract.ExampleEmbeddedObject | server.js:57-65 | an object surrounded by prose is cut out exactly |
| JsonExtract.ExampleRejected | server.js:58-62 | text without braces, and text with `{` but no `}`, are rejected without calling the parser |
| Server.PromptMissing | server.js:119-121 | `!prompt`: the prompt is absent or empty |
| Server.MessageContent | server.js:123-135 | the content is [image, text] when an image is sent, else [text] |
| Server.Params | server.js:137-146 | the fixed model id, API version and 4096-token limit; one user message whose last block is the prompt |
| Server.Generate | server.js:117-166 | a missing prompt gives 400 with no model call; otherwise one invocation built from the body is sent under the default retry, and the calls and sleeps are exactly retry's; an error retry rethrows becomes 500 with the fixed error and its message as details; an answer with text, after any number of throttled calls, is sent back verbatim with 200 without expectJson, and with expectJson as `stringify` of the parsed object with 200, or as 500 carrying the extraction error; 200 iff an answer is sent back |
| Server.PromptTravelsLast | server.js:123-135 | the single user message ends with the prompt text and has two blocks exactly when an image is sent |
| Server.PlainAnswerIsRelayed | server.js:149-157 | without expectJson, the first answer with text after j throttled calls is returned verbatim with 200, after j+1 calls and j doubling sleeps |
| Server.AnswerWithoutObjectIs500 | server.js:154-165 | with expectJson, a first answer with text (after j throttled calls) without an object span gives 500 carrying the extraction error, after j+1 calls |
| Server.JsonAnswerIsReformatted | server.js:149-157 | with expectJson, an object the parser accepts (after j throttled calls) is sent back as `stringify` of the parsed value, with 200, after j+1 calls and j doubling sleeps |
| Server.UnparsableObjectIs500 | server.js:154-165 | with expectJson, an object the parser rejects (after j throttled calls) gives 500; the details start with the parse-failure prefix and end with the rejected text |
| Server.ThrownErrorIs500 | server.js:147-165 | an error that is not a capacity error gives 500 with its message as details, after one call and no sleep |
| Server.ThrottledModelGives500 | server.js:147-165 | a permanently throttled model gives 500 after 6 calls and the full sleep schedule |
| BedrockService.ErrorText | services/bedrockService.ts:15-17 | the server's error field when present and non-empty, otherwise the fixed fallback text |
| BedrockService.CallBedrockApi | services/bedrockService.ts:6-26 | a non-ok response throws the error text; an ok response is returned verbatim, or parsed when JSON is expected, with parse errors thrown; network failures propagate; every throw is an Error |
| BedrockService.ArchitectureRequest | services/bedrockService.ts:34-35 | text requested, image forwarded; the prompt starts with the architecture prompt and the user-description tag and ends with the classification value |
| BedrockService.DfdRequest | services/bedrockService.ts:43-44 | text requested, image forwarded; the prompt starts with the DFD prompt and tag and ends with the AI description |
| BedrockService.ThreatsRequest | services/bedrockService.ts:53-54 | JSON requested, no image ever; the prompt starts with the threat prompt and the DFD tag and ends with the classification value |
| BedrockService.GenerateArchitectureDescription | services/bedrockService.ts:28-37 | the answer to the architecture request, or the error it throws |
| BedrockService.GenerateDfd | services/bedrockService.ts:39-46 | the answer to the DFD request, or the error it throws |
| BedrockService.GenerateThreats | services/bedrockService.ts:48-56 | the parsed answer to the threat request, or the transport or parse error |
| BedrockService.TaggedTailInjective | services/bedrockService.ts:34 | a prompt of the form head + text + tagged app type + tagged classification determines its three inputs |
| BedrockService.ArchitecturePromptDeterminesInputs | services/bedrockService.ts:34 | equal architecture prompts come from equal description, app type and classification |
| BedrockService.ThreatsPromptDeterminesInputs | services/bedrockService.ts:53 | equal threat prompts come from equal DFD, app type and classification |
| BedrockService.DfdPromptDeterminesInput | services/bedrockService.ts:43 | equal DFD prompts come from equal AI descriptions |
| BedrockService.StagePromptsAreNeverMissing | services/bedrockService.ts:7-13 | no stage request is ever rejected by the server's prompt check |
| BedrockService.Received | services/bedrockService.ts:15-20 | the client sees `ok` iff the status is 2xx; an answer arrives in the `response` field, an error reply in the `error` field |
| BedrockService.ArchitectureAnswerReachesCaller | services/bedrockService.ts:20-25 | against the server, the first model answer with text, after up to five throttled calls, reaches the caller verbatim |
| BedrockService.ThrottlingReachesCaller | services/bedrockService.ts:15-17 | against the server, a permanently throttled model surfaces as the server's fixed error text |
| Stepper.StepIndex | components/Stepper.tsx:44-52 | INPUT ↦ -1, REVIEW_DESCRIPTION ↦ 0, REVIEW_DFD ↦ 1, RESULTS ↦ 2, i.e. one below the step's number; a non-negative index names the step shown there |
| Stepper.Render | components/Stepper.tsx:54-70 | three steps and two connectors; step i is active iff i equals the index; completed iff i is below it; connector i is green iff i is below it |
| Stepper.StepIndexIsStrictlyMonotone | components/Stepper.tsx:44-52 | the index preserves and reflects the step order |
| Stepper.ActiveAndCompletedExclusive | components/Stepper.tsx:63-64 | no step is both active and completed, and at most one step is active |
| Stepper.ShownProgressMatchesStep | components/Stepper.tsx:63-64 | a step is shown as active or completed iff the current step has reached it |
| Stepper.EndPoints | components/Stepper.tsx:46-49 | at INPUT nothing is lit; at RESULTS steps 0 and 1 are completed, step 2 is active and both connectors are green |
| ThreatCard.CategoryColor | components/ThreatAnalysisCard.tsx:26-36 | a raw category string gets the default palette exactly when it is `Unknown` or no enum value at all |
| ThreatCard.CategoryIcon | components/ThreatAnalysisCard.tsx:6-24 | a raw category string gets the help icon exactly when it is `Unknown` or no enum value at all |
| ThreatCard.StatusStyle | components/ThreatAnalysisCard.tsx:38-48 | a raw status string gets the default-branch style exactly when it is `Pending` or no status value at all; only `Accepted` gets the accepted style |
| ThreatCard.Render | components/ThreatAnalysisCard.tsx:55-108 | controls iff the raw status is exactly `Pending`, a badge otherwise; the badge is green iff accepted and its caption is the translation lookup; a status outside the enum gets the default style, a red uncaptioned badge and no controls; the controls are exactly reject then accept, for the card's own id; a card without a category label has the default palette and icon |
| ThreatCard.TranslatedStatusCannotBeDecided | components/ThreatAnalysisCard.tsx:56-66 | a status written in Portuguese or lower case gets a red uncaptioned badge and no controls |
| ThreatCard.CategoryPresentationInjective | components/ThreatAnalysisCard.tsx:8-35 | the values of distinct enum members get distinct colours and distinct icons |
| ThreatCard.PromptCategoryNamesFallBack | components/ThreatAnalysisCard.tsx:69-71 | a threat whose category is one of the prompt's underscore names gets the default palette, the help icon and no label |
| Controller.InitialState | App.tsx:19-41 | the dashboard view at INPUT with the Web / Confidential defaults, no image, error or result; proceeding is blocked |
| Controller.CanProceedFromInput | App.tsx:43-45 | the gate as written: not loading, a trimmed title, and a trimmed description or an image |
| Controller.CanProceedFromInputIff | App.tsx:43-45 | proceeding is allowed iff not loading, the title is not all whitespace, and either the description is not all whitespace or an image is present |
| Controller.ResetState | App.tsx:47-64 | the state becomes the initial state except for the view and the export flag |
| Controller.ResetBlocksProceeding | App.tsx:47-64 | after a reset the step is INPUT and proceeding is blocked; resetting twice is resetting once |
| Controller.ErrorMessage | App.tsx:157-161 | an `Error`'s message, or the fixed fallback text for any other thrown value |
| Controller.Fail | App.tsx:155-164 | the step and every output stay, the error shown is the failure's message, and loading ends |
| Controller.StageImage | App.tsx:131-136 | no file gives no payload; a payload is always JPEG; staging fails exactly when the file's compression or encoding failed |
| Controller.PrimaryAttempt | App.tsx:130-154 | no call exactly at RESULTS; the call is blocked exactly when staging the image fails at INPUT or REVIEW_DESCRIPTION; otherwise INPUT sends the architecture request built from the description, app type, classification and staged image; REVIEW_DESCRIPTION sends the DFD request built from the AI description and image; REVIEW_DFD sends the threat request built from the DFD, app type and classification |
| Controller.DescribeStage | App.tsx:130-139 | a blocked image or a failed architecture call keeps INPUT and shows the failure's message; a successful call stores its text as the AI description and moves to REVIEW_DESCRIPTION; the DFD and threats are untouched |
| Controller.DiagramStage | App.tsx:140-149 | a blocked image or a failed DFD call keeps REVIEW_DESCRIPTION and shows the message; a successful call stores its text as the DFD description and moves to REVIEW_DFD; the AI description and threats are untouched |
| Controller.ThreatStage | App.tsx:150-153 | a failed or unparsable threat call keeps REVIEW_DFD and shows the message; a parsed answer is stored as the result and the step becomes RESULTS; the descriptions are untouched |
| Controller.HandlePrimaryAction | App.tsx:125-165 | the outcome is decided by the stage call: at RESULTS only the error is cleared; a blocked image or failed call keeps the step and every output and shows the failure's message; a successful call stores its answer as that stage's output and moves one step on; loading ends false and no input field changes |
| Controller.OnlyTheStageRequestMatters | App.tsx:125-165 | the outcome depends on the backend only through its answer to this stage's request |
| Controller.InputStageStoresAnswer | App.tsx:137-139 | an ok answer at INPUT is stored as the AI description and the step moves to REVIEW_DESCRIPTION |
| Controller.DiagramStageStoresAnswer | App.tsx:147-149 | an ok answer at REVIEW_DESCRIPTION is stored as the DFD description, the AI description is kept, and the step moves to REVIEW_DFD |
| Controller.TransportFailureStopsStage | App.tsx:155-161 | at every stage, a rejected request or non-ok response keeps the step and outputs and shows the rejection's message or the server's error text |
| Controller.ImageFailureStopsStage | App.tsx:131-161 | a failed image preparation blocks the call; the step and outputs stay, and the error is the compression message or the fallback text |
| Controller.ThreatStageOutcome | App.tsx:150-161 | at REVIEW_DFD a parsed result is stored and the step becomes RESULTS; a parse error is held and the step stays |
| Controller.HandleBack | App.tsx:167-171 | the error is cleared; REVIEW_DESCRIPTION and REVIEW_DFD move one step back; INPUT and RESULTS stay; nothing else changes |
| Controller.BackUndoesAdvance | App.tsx:125-171 | going back after a successful advance restores the step, clears the error and keeps the outputs |
| Controller.ResultsIsFinal | App.tsx:125-171 | at RESULTS neither handler moves the step, and the primary action only clears loading and error |
| Controller.AdvanceMovesIndicator | App.tsx:139-153 | when the primary action advances the step, the stepper's index grows by exactly one |
| Controller.SetStatus | App.tsx:191 | same length and order; each threat takes the new status's value iff its id matches; no other field changes |
| Controller.HandleThreatStatusChange | App.tsx:188-193 | a null result stays null; otherwise only statuses of matching threats change; the rest of the state is unchanged |
| Controller.StatusChangeIsIdempotent | App.tsx:188-193 | applying the same status change twice equals applying it once |
| Controller.CardActionDecidesThreat | components/ThreatAnalysisCard.tsx:91-108 | pressing a card's control sets that threat's status to the chosen one's value, after which the card shows a badge captioned with its label and no controls |
| Controller.HandleViewAnalysis | App.tsx:195-208 | a saved analysis is loaded wholesale at RESULTS with no file; the preview is its image URL unless that is missing or "N/A" |
| Controller.ViewedAnalysisIsFinal | App.tsx:195-208 | a loaded analysis makes no further model call and keeps its stored outputs |
| PdfLayout.PlacementStaysInside | App.tsx:297-303 | from below the top margin, text starts below it; the text ends above the bottom margin iff it fits an empty page; exactly filling the page does not break |
| PdfLayout.AddWrappedText | App.tsx:291-304 | the text is drawn at the start y, or at the top margin of a new page when `y + lines*size/2.8` would cross the bottom margin; the returned y is just below it |
| PdfLayout.BlockHeight | App.tsx:387 | a threat block reserves at least 60 mm |
| PdfLayout.StatusText | App.tsx:402 | the status line reads `Status: ` and the status's label, or `Status: undefined` for a status outside the enum |
| PdfLayout.StatusLabelItem | App.tsx:402-406 | the status is drawn at 10pt so that its 14pt-bold width ends 5 mm inside the right margin |
| PdfLayout.BlockHeader | App.tsx:398-413 | the name at 14pt bold, the status, and the category 8 mm lower at 10pt bold are appended in that order |
| PdfLayout.PromptCategoryNamesPrintUndefined | App.tsx:412 | a threat whose category is one of the prompt's underscore names is reported as `Categoria: undefined` |
| PdfLayout.BlockBody | App.tsx:396-418 | the name and status 10 mm below the frame's top; the category 8 mm lower in 10pt bold; the 10pt description from 26 mm below the top (or a new page), its line count measured at the inner width; the mitigation 5 mm below the description's end (or a new page), on the page the document ends on; the font ends at 10pt normal |
| PdfLayout.ThreatBlock | App.tsx:387-420 | the frame of the reserved height opens the block, on a new page exactly when it would cross the bottom margin; the name and status are 10 mm below its top; the cursor ends 10 mm below the frame |
| PdfLayout.ChainedStep | App.tsx:386-421 | drawing one more block keeps the section indexed and chained |
| PdfLayout.SectionStep | App.tsx:386-421 | drawing one more block keeps every promise of the threat section: indexed, chained, spaced, inside the margins and bounded |
| PdfLayout.ThreatBlocks | App.tsx:386-421 | six entries per threat in list order, each with its frame and name; the first height is measured in the heading font, later ones at 10pt; each frame is asked for 10 mm below the previous one (the first at the section's start), on the page the previous block's last text ended on, and moves to a new page at the top margin exactly when it would cross the bottom margin; the cursor ends 10 mm below the last frame; no two frames overlap; each lies above the cursor; a frame stays inside the margins iff it fits an empty page |
| PdfLayout.ImageHeight | App.tsx:348-350 | the scaled diagram has positive height |
| PdfLayout.PictureKeepsAspectRatio | App.tsx:347-350 | the picture spans the content width and keeps the image's width/height ratio |
| PdfLayout.ImageBlock | App.tsx:342-363 | a loaded diagram is placed at full content width, on a new page if it would cross the bottom margin; a load error draws nothing and keeps y |
| PdfLayout.Slug | App.tsx:423 | same length; every character is a lower-case letter, a digit or `_`; `_` exactly where the title is not an ASCII letter or digit |
| PdfLayout.SlugKeepsAlphanumerics | App.tsx:423 | ASCII letters and digits are kept, lower-cased |
| PdfLayout.SlugIsIdempotent | App.tsx:423 | sanitising a sanitised name changes nothing |
| PdfLayout.FileName | App.tsx:424 | the file name has the fixed prefix and the `.pdf` suffix |
| PdfLayout.FileNameFallback | App.tsx:423-424 | an empty title gives `analise`; any other title gives its sanitised form |
| PdfLayout.TitlePage | App.tsx:306-326 | five entries on page 0, the first the centred 24pt title (or the default title) |
| PdfLayout.Section | App.tsx:370-375 | a section opens a new page with its 18pt-bold heading at the top margin, and the cursor 10 mm below |
| PdfLayout.ArchitectureSection | App.tsx:328-367 | heading on a new page; the user's description or "N/A"; the diagram caption and picture only with a preview; then the AI description last |
| PdfLayout.Sections | App.tsx:306-384 | title page; architecture, DFD and threats sections in that order, each heading opening a page; the cursor starts the threats 15 mm below the top margin |
| PdfLayout.ExportPdf | App.tsx:281-424 | the sections in fixed order, then one six-entry block per threat in list order, named in 14pt bold; the diagram only when a preview loads; the sanitised file name |
| PdfLayout.FinishExport | App.tsx:426-431 | the export flag ends cleared; a failure sets the export error; nothing else changes |

## Left out

- Express wiring, CORS and timeouts, static serving, the health route, DynamoDB and S3 access, presigned URLs, multer uploads and the file logger of `server.js`: network and persistence plumbing outside the core.
- The save and delete handlers of `App.tsx` (`fetch` calls), the dashboard component, the select component and the Tailwind configuration: they are I/O or pure markup.
- `compressImage` and `fileToBase64` (canvas and FileReader work). Their outcome is an input of the model: an encoded JPEG payload, an `Error`, or a non-`Error` rejection.
- Server.Generate: the decoding of the model response (TextDecoder, `JSON.parse` of the body, `content[0].text`) is folded into the model-call oracle, so a decoding error counts as a thrown call outcome. The `stack` field sent in development mode is not modelled.
- `JSON.parse` and `JSON.stringify`: oracles. The parse oracle yields `Threat` records directly, so a threat list whose fields are missing or are not strings is not modelled. The category field is kept as the raw string, since the code does not check it against the enum.
- The prompt texts in `prompts/*.ts` are opaque string constants.
- `setTimeout` sleeps are recorded as delays. The live clock behind the report date is a parameter.
- React rendering, asynchronous interleaving and the `isLoading` window during a call: only the state after a handler completes is modelled. There is no concurrency guard beyond disabled buttons, and none is claimed.
- jsPDF drawing, `splitTextToSize` and `getTextWidth`: only the positions and pages of what is drawn are modelled, with the metrics as inputs.
- Floating point: lengths are exact reals. The A4 size in millimetres is derived from jsPDF's 595.28 × 841.89 pt.
- PdfLayout.ImageBlock: image sizes are positive integers. A zero-sized image, which would give an infinite or NaN height in JavaScript, is not modelled.
- PdfLayout.Slug: the title is a sequence of characters. JavaScript's regular expression works on UTF-16 code units, so a character outside the Basic Multilingual Plane becomes two `_` in the code and one in the model.
- PdfLayout.ThreatBlocks: a block taller than the printable area is still drawn from the top margin and crosses the bottom margin, which the code also does. The contract states this as "inside the margins iff it fits an empty page" rather than promising containment.
- PdfLayout.BlockBody: the description and mitigation may themselves break onto a new page. The block's frame and the cursor keep the coordinates of the page the frame is on, and the contract does not relate the two.
- PdfLayout.ExportPdf: the positions of the title-page lines and of the DFD paragraph are not stated beyond their order. ExportPdf does not restate the threat frames' positions; ThreatBlocks states them.
- ThreatCard.Render: the Tailwind class strings are abstract palette, icon and style tokens.
- Types.CategoryLabel: the translation maps are plain JavaScript objects, so a raw category naming an inherited `Object.prototype` property (`toString`, `constructor`, `__proto__`, …) gives that property rather than `undefined`. The card then renders a function or fails on an object child, and the PDF prints the function's source. The model treats such strings like any other string outside the enum.
- Types.StatusLabelOf: the same holds for a raw status naming an inherited `Object.prototype` property; the model gives `undefined` (`None`) for it.
- Controller.HandlePrimaryAction: the intermediate state with `isLoading` true and the error cleared is not modelled, only the final state.

=== FILE: bedrock_service.dfy ===
/**
 * The client side of the model calls (services/bedrockService.ts): one
 * generic call to the server endpoint and the three stage builders that fix
 * each stage's prompt, whether an image goes along, and whether a JSON
 * answer is expected.
 *
 * The transport is an oracle from request to HTTP response, and `parse` is
 * `JSON.parse` (a value, or the message of the exception it throws). The
 * three prompt preambles are opaque constants.
 */
module BedrockService {
  import opened Wrappers
  import opened Types
  import opened Js
  import Server
  import Retry

  const ArchitectureDescriptionPrompt: string
  const DfdGeneratorPrompt: string
  const ThreatModelerPrompt: string

  const UserDescriptionTag := " User description: "
  const AiDescriptionTag := " AI description: "
  const DfdTag := " DFD: "
  const AppTypeTag := ", Application type: "
  const ClassificationTag := ", Data classification: "
  const CallFailed := "Failed to call Bedrock API"

  /** The body `callBedrockApi` posts. */
  datatype ApiRequest = ApiRequest(prompt: string, expectJson: bool, imagePayload: Option<Server.ImagePayload>)

  /** The response as `fetch` delivers it: a rejection with an `Error`, or a
      status flag with the `error` and `response` fields of the JSON body.
      The rejection stands for a rejected `fetch` and equally for
      `response.json()` rejecting a body that is not JSON, on either the
      error path or the success path. */
  datatype HttpResponse =
    | NetworkError(message: string)
    | HttpResponse(ok: bool, errorField: Option<string>, responseField: string)

  /** What `callBedrockApi` resolves to: the answer text, or the parsed JSON value. */
  datatype Payload = Verbatim(text: string) | Parsed(value: AnalysisResult)

  /** `errorBody.error || 'Failed to call Bedrock API'`: an absent or empty field falls back. */
  function ErrorText(errorField: Option<string>): (m: string)
    ensures errorField.Some? && errorField.value != "" ==> m == errorField.value
    ensures errorField.None? || errorField.value == "" ==> m == CallFailed
  {
    if errorField.Some? && errorField.value != "" then errorField.value else CallFailed
  }

  /**
   * `callBedrockApi`. A non-ok response throws the server's error text (or
   * the fixed fallback); an ok response yields the answer verbatim, or, when
   * JSON is expected, the value `JSON.parse` makes of it.
   */
  function CallBedrockApi(req: ApiRequest, resp: HttpResponse, parse: string -> Result<AnalysisResult, string>): (r: Result<Payload, Exception>)
    ensures resp.NetworkError? ==> r == Failure(ErrorObject(resp.message))
    ensures resp.HttpResponse? && !resp.ok ==> r == Failure(ErrorObject(ErrorText(resp.errorField)))
    ensures resp.HttpResponse? && resp.ok && !req.expectJson ==> r == Success(Verbatim(resp.responseField))
    ensures resp.HttpResponse? && resp.ok && req.expectJson ==>
      match parse(resp.responseField)
      case Success(v) => r == Success(Parsed(v))
      case Failure(m) => r == Failure(ErrorObject(m))
    ensures r.Failure? ==> r.error.ErrorObject?
  {
    match resp
    case NetworkError(m) => Failure(ErrorObject(m))
    case HttpResponse(ok, errorField, response) =>
      if !ok then Failure(ErrorObject(ErrorText(errorField)))
      else if req.expectJson then
        match parse(response)
        case Success(v) => Success(Parsed(v))
        case Failure(m) => Failure(ErrorObject(m))
      else Success(Verbatim(response))
  }

  /** The architecture stage asks for text about the user's description, app type and
      classification, and forwards the image when there is one. */
  function ArchitectureRequest(description: string, appType: ApplicationType, classification: DataClassification,
                               image: Option<Server.ImagePayload>): (req: ApiRequest)
    ensures !req.expectJson && req.imagePayload == image
    ensures IsPrefix(ArchitectureDescriptionPrompt + UserDescriptionTag, req.prompt)
    ensures IsSuffix(ClassificationValue(classification), req.prompt)
  {
    var prompt := ArchitectureDescriptionPrompt + UserDescriptionTag + description
      + AppTypeTag + AppTypeValue(appType) + ClassificationTag + ClassificationValue(classification);
    assert prompt == (ArchitectureDescriptionPrompt + UserDescriptionTag) + (description
      + AppTypeTag + AppTypeValue(appType) + ClassificationTag + ClassificationValue(classification));
    ApiRequest(prompt, false, image)
  }

  /** The data-flow stage asks for text about the AI description alone, and forwards the image. */
  function DfdRequest(aiDescription: string, image: Option<Server.ImagePayload>): (req: ApiRequest)
    ensures !req.expectJson && req.imagePayload == image
    ensures IsPrefix(DfdGeneratorPrompt + AiDescriptionTag, req.prompt)
    ensures IsSuffix(aiDescription, req.prompt)
  {
    ApiRequest(DfdGeneratorPrompt + AiDescriptionTag + aiDescription, false, image)
  }

  /** The threat stage asks for JSON about the data-flow description, app type and
      classification, and never sends an image. */
  function ThreatsRequest(dfd: string, appType: ApplicationType, classification: DataClassification): (req: ApiRequest)
    ensures req.expectJson && req.imagePayload.None?
    ensures IsPrefix(ThreatModelerPrompt + DfdTag, req.prompt)
    ensures IsSuffix(ClassificationValue(classification), req.prompt)
  {
    var prompt := ThreatModelerPrompt + DfdTag + dfd
      + AppTypeTag + AppTypeValue(appType) + ClassificationTag + ClassificationValue(classification);
    assert prompt == (ThreatModelerPrompt + DfdTag) + (dfd
      + AppTypeTag + AppTypeValue(appType) + ClassificationTag + ClassificationValue(classification));
    ApiRequest(prompt, true, None)
  }

  predicate IsPrefix(t: string, s: string) {
    |t| <= |s| && s[..|t|] == t
  }

  /** `generateArchitectureDescription`. */
  function GenerateArchitectureDescription(description: string, appType: ApplicationType, classification: DataClassification,
                                           image: Option<Server.ImagePayload>,
                                           transport: ApiRequest -> HttpResponse,
                                           parse: string -> Result<AnalysisResult, string>): (r: Result<string, Exception>)
    ensures var resp := transport(ArchitectureRequest(description, appType, classification, image));
      && (resp.HttpResponse? && resp.ok ==> r == Success(resp.responseField))
      && (resp.HttpResponse? && !resp.ok ==> r == Failure(ErrorObject(ErrorText(resp.errorField))))
      && (resp.NetworkError? ==> r == Failure(ErrorObject(resp.message)))
  {
    var req := ArchitectureRequest(description, appType, classification, image);
    match CallBedrockApi(req, transport(req), parse)
    case Success(p) => Success(p.text)
    case Failure(e) => Failure(e)
  }

  /** `generateDfd`. */
  function GenerateDfd(aiDescription: string, image: Option<Server.ImagePayload>,
                       transport: ApiRequest -> HttpResponse,
                       parse: string -> Result<AnalysisResult, string>): (r: Result<string, Exception>)
    ensures var resp := transport(DfdRequest(aiDescription, image));
      && (resp.HttpResponse? && resp.ok ==> r == Success(resp.responseField))
      && (resp.HttpResponse? && !resp.ok ==> r == Failure(ErrorObject(ErrorText(resp.errorField))))
      && (resp.NetworkError? ==> r == Failure(ErrorObject(resp.message)))
  {
    var req := DfdRequest(aiDescription, image);
    match CallBedrockApi(req, transport(req), parse)
    case Success(p) => Success(p.text)
    case Failure(e) => Failure(e)
  }

  /** `generateThreats`: the answer is the value `JSON.parse` makes of the response. */
  function GenerateThreats(dfd: string, appType: ApplicationType, classification: DataClassification,
                           transport: ApiRequest -> HttpResponse,
                           parse: string -> Result<AnalysisResult, string>): (r: Result<AnalysisResult, Exception>)
    ensures var resp := transport(ThreatsRequest(dfd, appType, classification));
      && (resp.HttpResponse? && resp.ok ==>
            match parse(resp.responseField)
            case Success(v) => r == Success(v)
            case Failure(m) => r == Failure(ErrorObject(m)))
      && (resp.HttpResponse? && !resp.ok ==> r == Failure(ErrorObject(ErrorText(resp.errorField))))
      && (resp.NetworkError? ==> r == Failure(ErrorObject(resp.message)))
  {
    var req := ThreatsRequest(dfd, appType, classification);
    match CallBedrockApi(req, transport(req), parse)
    case Success(p) => Success(p.value)
    case Failure(e) => Failure(e)
  }

  // ---------------------------------------------------------------------
  // The prompts are unambiguous: each stage's prompt determines the inputs
  // it was built from.

  lemma CancelRight(a: string, b: string, v: string)
    requires a + v == b + v
    ensures a == b
  {
    assert a == (a + v)[..|a|];
    assert b == (b + v)[..|b|];
  }

  lemma CancelLeft(h: string, a: string, b: string)
    requires h + a == h + b
    ensures a == b
  {
    assert a == (h + a)[|h|..];
    assert b == (h + b)[|h|..];
  }

  /** Of two strings ending two equal strings, the shorter ends the longer. */
  lemma CommonTail(a: string, v: string, b: string, w: string)
    requires a + v == b + w
    ensures |v| <= |w| ==> IsSuffix(v, w)
    ensures |w| <= |v| ==> IsSuffix(w, v)
  {
    var s := a + v;
    assert s[|s| - |v|..] == v;
    assert s[|s| - |w|..] == w;
    if |v| <= |w| {
      assert w[|w| - |v|..] == s[|s| - |v|..];
    } else {
      assert v[|v| - |w|..] == s[|s| - |w|..];
    }
  }

  /** The common tail of the architecture and threat prompts determines the
      free text, the application type and the classification. */
  lemma {:induction false} TaggedTailInjective(head: string,
                                               x: string, a: ApplicationType, c: DataClassification,
                                               y: string, b: ApplicationType, d: DataClassification)
    requires head + x + AppTypeTag + AppTypeValue(a) + ClassificationTag + ClassificationValue(c)
          == head + y + AppTypeTag + AppTypeValue(b) + ClassificationTag + ClassificationValue(d)
    ensures x == y && a == b && c == d
  {
    var p := head + x + AppTypeTag + AppTypeValue(a) + ClassificationTag;
    var q := head + y + AppTypeTag + AppTypeValue(b) + ClassificationTag;
    CommonTail(p, ClassificationValue(c), q, ClassificationValue(d));
    if |ClassificationValue(c)| <= |ClassificationValue(d)| {
      ClassificationValuesSuffixFree(c, d);
    } else {
      ClassificationValuesSuffixFree(d, c);
    }
    CancelRight(p, q, ClassificationValue(c));
    CancelRight(head + x + AppTypeTag + AppTypeValue(a), head + y + AppTypeTag + AppTypeValue(b), ClassificationTag);
    CommonTail(head + x + AppTypeTag, AppTypeValue(a), head + y + AppTypeTag, AppTypeValue(b));
    if |AppTypeValue(a)| <= |AppTypeValue(b)| {
      AppTypeValuesSuffixFree(a, b);
    } else {
      AppTypeValuesSuffixFree(b, a);
    }
    CancelRight(head + x + AppTypeTag, head + y + AppTypeTag, AppTypeValue(a));
    CancelRight(head + x, head + y, AppTypeTag);
    CancelLeft(head, x, y);
  }

  /** Distinct architecture-stage inputs give distinct prompts. */
  lemma ArchitecturePromptDeterminesInputs(
    x: string, a: ApplicationType, c: DataClassification, i: Option<Server.ImagePayload>,
    y: string, b: ApplicationType, d: DataClassification, j: Option<Server.ImagePayload>)
    requires ArchitectureRequest(x, a, c, i).prompt == ArchitectureRequest(y, b, d, j).prompt
    ensures x == y && a == b && c == d
  {
    TaggedTailInjective(ArchitectureDescriptionPrompt + UserDescriptionTag, x, a, c, y, b, d);
  }

  /** Distinct threat-stage inputs give distinct prompts. */
  lemma ThreatsPromptDeterminesInputs(
    x: string, a: ApplicationType, c: DataClassification,
    y: string, b: ApplicationType, d: DataClassification)
    requires ThreatsRequest(x, a, c).prompt == ThreatsRequest(y, b, d).prompt
    ensures x == y && a == b && c == d
  {
    TaggedTailInjective(ThreatModelerPrompt + DfdTag, x, a, c, y, b, d);
  }

  /** The data-flow prompt determines the AI description it was built from. */
  lemma DfdPromptDeterminesInput(x: string, i: Option<Server.ImagePayload>, y: string, j: Option<Server.ImagePayload>)
    requires DfdRequest(x, i).prompt == DfdRequest(y, j).prompt
    ensures x == y
  {
    CancelLeft(DfdGeneratorPrompt + AiDescriptionTag, x, y);
  }

  // ---------------------------------------------------------------------
  // The client against the server.

  /** The body the server reads from a client request. */
  function ServerBody(req: ApiRequest): Server.GenerateBody {
    Server.GenerateBody(Some(req.prompt), req.expectJson, req.imagePayload)
  }

  /** The response the client receives for a server reply. */
  function Received(reply: Server.Reply): (r: HttpResponse)
    ensures r.HttpResponse? && (r.ok <==> 200 <= reply.status <= 299)
    ensures reply.body.Generated? ==> r.errorField.None? && r.responseField == reply.body.response
    ensures reply.body.ErrorReply? ==> r.errorField == Some(reply.body.error)
  {
    var ok := 200 <= reply.status <= 299;
    match reply.body
    case Generated(text) => HttpResponse(ok, None, text)
    case ErrorReply(e, _) => HttpResponse(ok, Some(e), "")
  }

  /** Every stage prompt passes the server's prompt check. */
  lemma StagePromptsAreNeverMissing(description: string, ai: string, dfd: string, a: ApplicationType, c: DataClassification,
                                    image: Option<Server.ImagePayload>)
    ensures !Server.PromptMissing(ServerBody(ArchitectureRequest(description, a, c, image)))
    ensures !Server.PromptMissing(ServerBody(DfdRequest(ai, image)))
    ensures !Server.PromptMissing(ServerBody(ThreatsRequest(dfd, a, c)))
  {
    var r1, r2, r3 := ArchitectureRequest(description, a, c, image), DfdRequest(ai, image), ThreatsRequest(dfd, a, c);
    assert r1.prompt[|ArchitectureDescriptionPrompt|..|ArchitectureDescriptionPrompt| + |UserDescriptionTag|] == UserDescriptionTag;
    assert r2.prompt[|DfdGeneratorPrompt|..|DfdGeneratorPrompt| + |AiDescriptionTag|] == AiDescriptionTag;
    assert r3.prompt[|ThreatModelerPrompt|..|ThreatModelerPrompt| + |DfdTag|] == DfdTag;
  }

  /** End to end: when the model's first answer with text to the
      architecture stage, after `j` throttled calls, is `text`, the stage
      resolves to exactly `text`. */
  lemma ArchitectureAnswerReachesCaller<J>(description: string, a: ApplicationType, c: DataClassification,
                                           image: Option<Server.ImagePayload>,
                                           bedrock: nat -> Retry.Outcome<string>,
                                           parseOnServer: string -> Result<J, string>, stringify: J -> string,
                                           parse: string -> Result<AnalysisResult, string>, j: nat)
    requires j <= Retry.DefaultRetries
    requires forall k :: 0 <= k < j ==> Retry.IsTransient(bedrock(k))
    requires bedrock(j).Returned?
    ensures var transport := (req: ApiRequest) => Received(Server.Generate(ServerBody(req), bedrock, parseOnServer, stringify).reply);
      GenerateArchitectureDescription(description, a, c, image, transport, parse) == Success(bedrock(j).value)
  {
    var req := ArchitectureRequest(description, a, c, image);
    StagePromptsAreNeverMissing(description, "", "", a, c, image);
    Server.PlainAnswerIsRelayed(ServerBody(req), bedrock, parseOnServer, stringify, j);
  }

  /** End to end: a model that stays throttled surfaces to the caller as the
      server's fixed error text. */
  lemma ThrottlingReachesCaller<J>(dfd: string, a: ApplicationType, c: DataClassification,
                                   bedrock: nat -> Retry.Outcome<string>,
                                   parseOnServer: string -> Result<J, string>, stringify: J -> string,
                                   parse: string -> Result<AnalysisResult, string>)
    requires forall k :: Retry.IsTransient(bedrock(k))
    ensures var transport := (req: ApiRequest) => Received(Server.Generate(ServerBody(req), bedrock, parseOnServer, stringify).reply);
      GenerateThreats(dfd, a, c, transport, parse) == Failure(ErrorObject(Server.InvokeFailed))
  {
    var req := ThreatsRequest(dfd, a, c);
    StagePromptsAreNeverMissing("", "", dfd, a, c, None);
    Server.ThrottledModelGives500(ServerBody(req), bedrock, parseOnServer, stringify);
  }
}

=== FILE: controller.dfy ===
/**
 * The analysis pipeline of the application component (App.tsx): the
 * component's state as one record, and each event handler as a function
 * from the state (and, for the primary action, the backend the stage call
 * talks to) to the next state.
 *
 * The stage call is modelled end to end through the service functions; the
 * backend is the transport oracle plus `JSON.parse`. Compressing and
 * base64-encoding the chosen image is opaque: the file carries the outcome
 * of that preprocessing.
 */
module Controller {
  import opened Wrappers
  import opened Types
  import opened Js
  import Server
  import opened BedrockService
  import ThreatCard
  import Stepper

  datatype View = DashboardView | AnalysisView

  /** What compressing and reading the chosen image yields: its base64 data,
      the compressor's `Error`, or a rejection with a non-`Error` value (a
      failed image load or file read). */
  datatype Encoding = Encoded(base64: string) | CompressFailed | LoadFailed

  datatype ImageFile = ImageFile(name: string, encoding: Encoding)

  /** The component state. */
  datatype AppState = AppState(
    currentView: View,
    currentAnalysisId: Option<string>,
    isDeleting: bool,
    showDeleteConfirm: bool,
    title: string,
    architectureDescription: string,
    appType: ApplicationType,
    dataClassification: DataClassification,
    imageFile: Option<ImageFile>,
    imagePreview: Option<string>,
    currentStep: AnalysisStep,
    isLoading: bool,
    isExportingPdf: bool,
    error: Option<string>,
    aiDescription: string,
    dfdDescription: string,
    analysisResult: Option<AnalysisResult>)

  /** The model transport and `JSON.parse`. */
  datatype Backend = Backend(transport: ApiRequest -> HttpResponse, parse: string -> Result<AnalysisResult, string>)

  const UnknownError := "Ocorreu um erro desconhecido durante a análise."
  const CompressFailedMessage := "Failed to compress image"
  const CompressedMime := "image/jpeg"
  const NoImageUrl := "N/A"

  /** The state the component starts in. */
  function InitialState(): (r: AppState)
    ensures r.currentView == DashboardView && r.currentStep == Input
    ensures r.appType == Web && r.dataClassification == Confidential
    ensures r.imageFile.None? && r.error.None? && r.analysisResult.None? && !r.isLoading
    ensures !CanProceedFromInput(r)
  {
    AppState(DashboardView, None, false, false, "", "", Web, Confidential, None, None,
             Input, false, false, None, "", "", None)
  }

  /** The primary button on the input step is enabled: not busy, a title, and
      a description or an image. */
  predicate CanProceedFromInput(s: AppState) {
    !s.isLoading && Trim(s.title) != "" && (Trim(s.architectureDescription) != "" || s.imageFile.Some?)
  }

  /** The gate in terms of the characters typed: the title and (absent an image)
      the description must each hold a non-whitespace character. */
  lemma CanProceedFromInputIff(s: AppState)
    ensures CanProceedFromInput(s) <==>
      && !s.isLoading
      && !AllWhitespace(s.title)
      && (!AllWhitespace(s.architectureDescription) || s.imageFile.Some?)
  {
  }

  /** `resetState`: every field it sets goes back to its initial value; the view
      and the PDF-export flag are kept. */
  function ResetState(s: AppState): (r: AppState)
    ensures r == InitialState().(currentView := s.currentView, isExportingPdf := s.isExportingPdf)
  {
    s.(title := "", architectureDescription := "", appType := Web, dataClassification := Confidential,
       imageFile := None, imagePreview := None, currentStep := Input, analysisResult := None,
       aiDescription := "", dfdDescription := "", error := None, isLoading := false,
       currentAnalysisId := None, showDeleteConfirm := false, isDeleting := false)
  }

  /** After a reset the pipeline is at its first step and cannot proceed until a title is entered. */
  lemma ResetBlocksProceeding(s: AppState)
    ensures ResetState(s).currentStep == Input
    ensures !CanProceedFromInput(ResetState(s))
    ensures ResetState(ResetState(s)) == ResetState(s)
  {
  }

  /** The text the error banner shows for a thrown value. */
  function ErrorMessage(e: Exception): (m: string)
    ensures e.ErrorObject? ==> m == e.message
    ensures e.OtherValue? ==> m == UnknownError
  {
    match e
    case ErrorObject(m) => m
    case OtherValue => UnknownError
  }

  /** The image payload a stage sends: none without a file, a JPEG payload
      when preprocessing succeeds, the preprocessing failure otherwise. */
  function StageImage(f: Option<ImageFile>): (r: Result<Option<Server.ImagePayload>, Exception>)
    ensures f.None? ==> r == Success(None)
    ensures r.Success? && r.value.Some? ==> r.value.value.mimeType == CompressedMime
    ensures r.Failure? <==> f.Some? && !f.value.encoding.Encoded?
  {
    match f
    case None => Success(None)
    case Some(file) =>
      match file.encoding
      case Encoded(data) => Success(Some(Server.ImagePayload(CompressedMime, data)))
      case CompressFailed => Failure(ErrorObject(CompressFailedMessage))
      case LoadFailed => Failure(OtherValue)
  }

  /** What the primary action attempts from a state: nothing at the last step,
      a failure before any call when the image cannot be prepared, or one
      request to the stage's model call. */
  datatype Attempt = NoCall | Blocked(e: Exception) | Sends(req: ApiRequest)

  /** The request each step sends: the user's inputs at INPUT, the (possibly edited)
      AI description at REVIEW_DESCRIPTION, the data-flow description with the
      application type and classification at REVIEW_DFD. */
  function PrimaryAttempt(s: AppState): (a: Attempt)
    ensures s.currentStep == Results <==> a.NoCall?
    ensures a.Sends? && s.currentStep != ReviewDfd ==>
      StageImage(s.imageFile).Success? && a.req.imagePayload == StageImage(s.imageFile).value
    ensures a.Sends? ==> (a.req.expectJson <==> s.currentStep == ReviewDfd)
    ensures a.Blocked? <==> s.currentStep in {Input, ReviewDescription} && StageImage(s.imageFile).Failure?
    ensures a.Blocked? ==> a.e == StageImage(s.imageFile).error
    ensures s.currentStep == Input && a.Sends? ==>
      a.req == ArchitectureRequest(s.architectureDescription, s.appType, s.dataClassification, StageImage(s.imageFile).value)
    ensures s.currentStep == ReviewDescription && a.Sends? ==>
      a.req == DfdRequest(s.aiDescription, StageImage(s.imageFile).value)
    ensures s.currentStep == ReviewDfd ==> a == Sends(ThreatsRequest(s.dfdDescription, s.appType, s.dataClassification))
  {
    match s.currentStep
    case Input =>
      (match StageImage(s.imageFile)
       case Failure(e) => Blocked(e)
       case Success(img) => Sends(ArchitectureRequest(s.architectureDescription, s.appType, s.dataClassification, img)))
    case ReviewDescription =>
      (match StageImage(s.imageFile)
       case Failure(e) => Blocked(e)
       case Success(img) => Sends(DfdRequest(s.aiDescription, img)))
    case ReviewDfd => Sends(ThreatsRequest(s.dfdDescription, s.appType, s.dataClassification))
    case Results => NoCall
  }

  /** The fields the primary action never touches are those of `s`. */
  predicate SameBesidesFlow(s: AppState, r: AppState) {
    r.(currentStep := s.currentStep, isLoading := s.isLoading, error := s.error,
       aiDescription := s.aiDescription, dfdDescription := s.dfdDescription,
       analysisResult := s.analysisResult) == s
  }

  /** A stage that failed with `e`: the step stays and the banner shows `e`. */
  predicate Recorded(s: AppState, r: AppState, e: Exception) {
    r.currentStep == s.currentStep && r.error == Some(ErrorMessage(e))
  }

  /** The catch branch: the error is recorded and nothing else changes. */
  function Fail(s: AppState, e: Exception): (r: AppState)
    ensures Recorded(s, r, e) && !r.isLoading && SameBesidesFlow(s, r)
    ensures r.aiDescription == s.aiDescription && r.dfdDescription == s.dfdDescription
    ensures r.analysisResult == s.analysisResult
  {
    s.(isLoading := false, error := Some(ErrorMessage(e)))
  }

  /** The step a stage ends on: advanced by one with the stage's output stored
      and no error, or unchanged with the error recorded and every output kept. */
  predicate StageEnded(s: AppState, r: AppState, next: AnalysisStep) {
    && !r.isLoading
    && SameBesidesFlow(s, r)
    && (|| (r.currentStep == next && r.error.None?)
        || (r.currentStep == s.currentStep && r.error.Some?
            && r.aiDescription == s.aiDescription && r.dfdDescription == s.dfdDescription
            && r.analysisResult == s.analysisResult))
  }

  /** What a successful stage call stores: the answer text as the AI or
      data-flow description, or the parsed threat list, with the step one on. */
  predicate Stored(s: AppState, r: AppState, p: Payload) {
    match s.currentStep
    case Input => p.Verbatim? && r.currentStep == ReviewDescription && r.aiDescription == p.text
    case ReviewDescription => p.Verbatim? && r.currentStep == ReviewDfd && r.dfdDescription == p.text
    case ReviewDfd => p.Parsed? && r.currentStep == Results && r.analysisResult == Some(p.value)
    case Results => false
  }

  /** The primary action does what its stage call decides: at RESULTS it
      only clears the error; a blocked image or a failed call leaves the step
      and shows the failure; a successful call stores its answer. */
  predicate FollowsTheCall(s: AppState, b: Backend, r: AppState) {
    match PrimaryAttempt(s)
    case NoCall => r == s.(isLoading := false, error := None)
    case Blocked(e) => Recorded(s, r, e)
    case Sends(req) =>
      match CallBedrockApi(req, b.transport(req), b.parse)
      case Failure(e) => Recorded(s, r, e)
      case Success(p) => Stored(s, r, p) && r.error.None?
  }

  /** The INPUT stage: the architecture description. */
  function DescribeStage(s: AppState, b: Backend): (r: AppState)
    requires s.currentStep == Input
    ensures StageEnded(s, r, ReviewDescription)
    ensures r.dfdDescription == s.dfdDescription && r.analysisResult == s.analysisResult
    ensures FollowsTheCall(s, b, r)
  {
    var s' := s.(isLoading := true, error := None);
    match StageImage(s.imageFile)
    case Failure(e) => Fail(s', e)
    case Success(img) =>
      match GenerateArchitectureDescription(s.architectureDescription, s.appType, s.dataClassification, img, b.transport, b.parse)
      case Success(text) => s'.(aiDescription := text, currentStep := ReviewDescription, isLoading := false)
      case Failure(e) => Fail(s', e)
  }

  /** The REVIEW_DESCRIPTION stage: the data-flow description. */
  function DiagramStage(s: AppState, b: Backend): (r: AppState)
    requires s.currentStep == ReviewDescription
    ensures StageEnded(s, r, ReviewDfd)
    ensures r.aiDescription == s.aiDescription && r.analysisResult == s.analysisResult
    ensures FollowsTheCall(s, b, r)
  {
    var s' := s.(isLoading := true, error := None);
    match StageImage(s.imageFile)
    case Failure(e) => Fail(s', e)
    case Success(img) =>
      match GenerateDfd(s.aiDescription, img, b.transport, b.parse)
      case Success(text) => s'.(dfdDescription := text, currentStep := ReviewDfd, isLoading := false)
      case Failure(e) => Fail(s', e)
  }

  /** The REVIEW_DFD stage: the threat list. */
  function ThreatStage(s: AppState, b: Backend): (r: AppState)
    requires s.currentStep == ReviewDfd
    ensures StageEnded(s, r, Results)
    ensures r.aiDescription == s.aiDescription && r.dfdDescription == s.dfdDescription
    ensures r.currentStep == Results ==> r.analysisResult.Some?
    ensures FollowsTheCall(s, b, r)
  {
    var s' := s.(isLoading := true, error := None);
    match GenerateThreats(s.dfdDescription, s.appType, s.dataClassification, b.transport, b.parse)
    case Success(result) => s'.(analysisResult := Some(result), currentStep := Results, isLoading := false)
    case Failure(e) => Fail(s', e)
  }

  /**
   * `handlePrimaryAction`. On success the step advances by exactly one and only
   * the finished stage's output is stored; on failure the step and every
   * output stay, and the error is recorded. At RESULTS nothing is called and
   * only the error is cleared. The busy flag always ends cleared.
   */
  function HandlePrimaryAction(s: AppState, b: Backend): (r: AppState)
    ensures !r.isLoading
    ensures SameBesidesFlow(s, r)
    ensures r.currentStep == s.currentStep || StepOrdinal(r.currentStep) == StepOrdinal(s.currentStep) + 1
    ensures r.error.Some? <==> r.currentStep == s.currentStep && s.currentStep != Results
    ensures r.currentStep == s.currentStep ==>
      r.aiDescription == s.aiDescription && r.dfdDescription == s.dfdDescription && r.analysisResult == s.analysisResult
    ensures s.currentStep != Input ==> r.aiDescription == s.aiDescription
    ensures s.currentStep != ReviewDescription ==> r.dfdDescription == s.dfdDescription
    ensures s.currentStep != ReviewDfd ==> r.analysisResult == s.analysisResult
    ensures r.currentStep == Results && s.currentStep == ReviewDfd ==> r.analysisResult.Some?
    ensures FollowsTheCall(s, b, r)
  {
    match s.currentStep
    case Input => DescribeStage(s, b)
    case ReviewDescription => DiagramStage(s, b)
    case ReviewDfd => ThreatStage(s, b)
    case Results => s.(isLoading := false, error := None)
  }

  /** The next state depends on the backend only through its answer to the one
      request the step sends (and through `JSON.parse`). */
  lemma OnlyTheStageRequestMatters(s: AppState, b1: Backend, b2: Backend)
    requires b1.parse == b2.parse
    requires PrimaryAttempt(s).Sends? ==> b1.transport(PrimaryAttempt(s).req) == b2.transport(PrimaryAttempt(s).req)
    ensures HandlePrimaryAction(s, b1) == HandlePrimaryAction(s, b2)
  {
  }

  /** A state is advanced from INPUT with the model's answer as the AI description. */
  lemma InputStageStoresAnswer(s: AppState, b: Backend)
    requires s.currentStep == Input && PrimaryAttempt(s).Sends?
    requires var resp := b.transport(PrimaryAttempt(s).req); resp.HttpResponse? && resp.ok
    ensures var r := HandlePrimaryAction(s, b);
      r.currentStep == ReviewDescription && r.error.None?
      && r.aiDescription == b.transport(PrimaryAttempt(s).req).responseField
  {
  }

  /** A state is advanced from REVIEW_DESCRIPTION with the model's answer as the
      data-flow description; the AI description is kept. */
  lemma DiagramStageStoresAnswer(s: AppState, b: Backend)
    requires s.currentStep == ReviewDescription && PrimaryAttempt(s).Sends?
    requires var resp := b.transport(PrimaryAttempt(s).req); resp.HttpResponse? && resp.ok
    ensures var r := HandlePrimaryAction(s, b);
      r.currentStep == ReviewDfd && r.error.None?
      && r.dfdDescription == b.transport(PrimaryAttempt(s).req).responseField
      && r.aiDescription == s.aiDescription && r.analysisResult == s.analysisResult
  {
  }

  /** At every stage, a rejected request or a non-ok response keeps the step
      and every output, and shows the rejection's message or the server's
      error text (the fixed fallback when it sent none). */
  lemma TransportFailureStopsStage(s: AppState, b: Backend)
    requires PrimaryAttempt(s).Sends?
    requires var resp := b.transport(PrimaryAttempt(s).req); resp.NetworkError? || !resp.ok
    ensures var resp := b.transport(PrimaryAttempt(s).req);
      var r := HandlePrimaryAction(s, b);
      && r.currentStep == s.currentStep
      && r.error == Some(if resp.NetworkError? then resp.message else ErrorText(resp.errorField))
      && r.aiDescription == s.aiDescription && r.dfdDescription == s.dfdDescription
      && r.analysisResult == s.analysisResult
  {
  }

  /** An image that cannot be prepared stops the stage before any request, with
      the compressor's message or the fixed fallback text. */
  lemma ImageFailureStopsStage(s: AppState, b: Backend)
    requires s.currentStep in {Input, ReviewDescription}
    requires s.imageFile.Some? && !s.imageFile.value.encoding.Encoded?
    ensures PrimaryAttempt(s).Blocked?
    ensures var r := HandlePrimaryAction(s, b);
      r.currentStep == s.currentStep
      && r.error == Some(if s.imageFile.value.encoding == LoadFailed then UnknownError else CompressFailedMessage)
  {
  }

  /** The threat stage stores the parsed answer and reaches RESULTS; a parse
      failure keeps REVIEW_DFD and shows the parser's message. */
  lemma ThreatStageOutcome(s: AppState, b: Backend)
    requires s.currentStep == ReviewDfd
    requires var resp := b.transport(ThreatsRequest(s.dfdDescription, s.appType, s.dataClassification)); resp.HttpResponse? && resp.ok
    ensures var resp := b.transport(ThreatsRequest(s.dfdDescription, s.appType, s.dataClassification));
      var r := HandlePrimaryAction(s, b);
      match b.parse(resp.responseField)
      case Success(v) => r.currentStep == Results && r.analysisResult == Some(v)
      case Failure(m) => r.currentStep == ReviewDfd && r.error == Some(m) && r.analysisResult == s.analysisResult
  {
  }

  /** `handleBack`: clears the error and steps back one step from the two review
      steps; INPUT and RESULTS stay where they are. Nothing else changes. */
  function HandleBack(s: AppState): (r: AppState)
    ensures r.error.None?
    ensures r.(error := s.error, currentStep := s.currentStep) == s
    ensures s.currentStep in {ReviewDescription, ReviewDfd} ==> StepOrdinal(r.currentStep) == StepOrdinal(s.currentStep) - 1
    ensures s.currentStep in {Input, Results} ==> r.currentStep == s.currentStep
  {
    var s' := s.(error := None);
    if s.currentStep == ReviewDescription then s'.(currentStep := Input)
    else if s.currentStep == ReviewDfd then s'.(currentStep := ReviewDescription)
    else s'
  }

  /** Going back after advancing from INPUT or REVIEW_DESCRIPTION returns to the
      step left, keeps the output just produced, and shows no error. */
  lemma BackUndoesAdvance(s: AppState, b: Backend)
    requires s.currentStep in {Input, ReviewDescription}
    requires HandlePrimaryAction(s, b).currentStep != s.currentStep
    ensures var r := HandlePrimaryAction(s, b);
      var back := HandleBack(r);
      && back.currentStep == s.currentStep
      && back.error.None?
      && back.aiDescription == r.aiDescription && back.dfdDescription == r.dfdDescription
  {
  }

  /** Once at RESULTS neither handler leaves it. */
  lemma ResultsIsFinal(s: AppState, b: Backend)
    requires s.currentStep == Results
    ensures HandlePrimaryAction(s, b).currentStep == Results
    ensures HandleBack(s).currentStep == Results
    ensures HandlePrimaryAction(s, b) == s.(isLoading := false, error := None)
  {
  }

  /** A successful advance moves the progress indicator one place. */
  lemma AdvanceMovesIndicator(s: AppState, b: Backend)
    requires HandlePrimaryAction(s, b).currentStep != s.currentStep
    ensures Stepper.StepIndex(HandlePrimaryAction(s, b).currentStep) == Stepper.StepIndex(s.currentStep) + 1
  {
  }

  /** Sets `status` on every threat with the given id, keeping everything else. */
  function SetStatus(threats: seq<Threat>, id: string, status: ThreatStatus): (r: seq<Threat>)
    ensures |r| == |threats|
    ensures forall i :: 0 <= i < |r| ==>
      r[i] == if threats[i].threatId == id then threats[i].(status := StatusValue(status)) else threats[i]
  {
    if |threats| == 0 then []
    else
      var head := if threats[0].threatId == id then threats[0].(status := StatusValue(status)) else threats[0];
      [head] + SetStatus(threats[1..], id, status)
  }

  /** `handleThreatStatusChange`: only the matching threats change, and only in
      their status; a missing result stays missing. */
  function HandleThreatStatusChange(s: AppState, id: string, status: ThreatStatus): (r: AppState)
    ensures r.(analysisResult := s.analysisResult) == s
    ensures r.analysisResult.None? <==> s.analysisResult.None?
    ensures s.analysisResult.Some? ==>
      var before, after := s.analysisResult.value.threats, r.analysisResult.value.threats;
      && |after| == |before|
      && (forall i :: 0 <= i < |after| ==> after[i].(status := before[i].status) == before[i])
      && (forall i :: 0 <= i < |after| ==> after[i].status == if before[i].threatId == id then StatusValue(status) else before[i].status)
  {
    match s.analysisResult
    case None => s
    case Some(result) => s.(analysisResult := Some(result.(threats := SetStatus(result.threats, id, status))))
  }

  /** Repeating a status change changes nothing more. */
  lemma StatusChangeIsIdempotent(s: AppState, id: string, status: ThreatStatus)
    ensures var once := HandleThreatStatusChange(s, id, status);
      HandleThreatStatusChange(once, id, status) == once
  {
    var once := HandleThreatStatusChange(s, id, status);
    var twice := HandleThreatStatusChange(once, id, status);
    if s.analysisResult.Some? {
      assert twice.analysisResult.value.threats == once.analysisResult.value.threats;
    }
  }

  /** Pressing either button of a pending threat's card takes that threat out of
      PENDING: its card then shows a badge with the decided status's label and
      no buttons. */
  lemma CardActionDecidesThreat(s: AppState, i: nat, k: nat)
    requires s.analysisResult.Some? && i < |s.analysisResult.value.threats|
    requires var t := s.analysisResult.value.threats[i]; k < |ThreatCard.Render(t).controls|
    ensures var t := s.analysisResult.value.threats[i];
      var action := ThreatCard.Render(t).controls[k];
      var r := HandleThreatStatusChange(s, action.threatId, action.status);
      var card := ThreatCard.Render(r.analysisResult.value.threats[i]);
      && card.controls == [] && card.badge == Some(ThreatCard.Badge(card.badge.value.tone, Some(StatusLabel(action.status))))
      && r.analysisResult.value.threats[i].status == StatusValue(action.status)
  {
    var t := s.analysisResult.value.threats[i];
    assert ThreatCard.Render(t).controls[k] in ThreatCard.Render(t).controls;
  }

  /** `handleViewAnalysis`: loads a saved analysis wholesale and shows its
      results; the stored image is previewed unless its URL is the `N/A`
      placeholder. Error, busy and dialog flags are kept. */
  function HandleViewAnalysis(s: AppState, a: Analysis): (r: AppState)
    ensures r.currentStep == Results && r.currentView == AnalysisView
    ensures r.title == a.title && r.architectureDescription == a.originalDescription
    ensures r.appType == a.appType && r.dataClassification == a.dataClassification
    ensures r.aiDescription == a.aiDescription && r.dfdDescription == a.dfdDescription
    ensures r.analysisResult == Some(a.analysisResult) && r.currentAnalysisId == Some(a.id)
    ensures r.imageFile.None?
    ensures r.imagePreview.Some? <==> a.imageUrl.Some? && a.imageUrl.value != NoImageUrl
    ensures r.imagePreview.Some? ==> r.imagePreview == a.imageUrl
    ensures r.error == s.error && r.isLoading == s.isLoading && r.isExportingPdf == s.isExportingPdf
    ensures r.isDeleting == s.isDeleting && r.showDeleteConfirm == s.showDeleteConfirm
  {
    s.(title := a.title, architectureDescription := a.originalDescription, appType := a.appType,
       dataClassification := a.dataClassification, imageFile := None,
       imagePreview := if a.imageUrl != Some(NoImageUrl) then a.imageUrl else None,
       aiDescription := a.aiDescription, dfdDescription := a.dfdDescription,
       analysisResult := Some(a.analysisResult), currentAnalysisId := Some(a.id),
       currentStep := Results, currentView := AnalysisView)
  }

  /** A loaded analysis is final: the primary action makes no call and keeps
      every stored output. */
  lemma ViewedAnalysisIsFinal(s: AppState, a: Analysis, b: Backend)
    ensures var v := HandleViewAnalysis(s, a);
      var r := HandlePrimaryAction(v, b);
      && PrimaryAttempt(v).NoCall?
      && r.currentStep == Results
      && r.analysisResult == Some(a.analysisResult)
      && r.aiDescription == a.aiDescription && r.dfdDescription == a.dfdDescription
  {
  }
}

=== FILE: js.dfy ===
/**
 * The few pieces of JavaScript runtime behaviour the application relies on:
 * thrown values, `String.prototype.trim`, and the ASCII character classes
 * used by the report file-name sanitiser.
 */
module Js {

  /** A thrown value: either an `Error` object (which has a `message`) or any
      other value (a DOM event, say), which has none. */
  datatype Exception = ErrorObject(message: string) | OtherValue

  /** The characters `String.prototype.trim` removes: WhiteSpace and
      LineTerminator of the ECMAScript grammar. */
  predicate IsWhitespace(c: char) {
    || c == ' ' || c == '\t' || c == '\n' || c == '\r'
    || c == '\U{000B}' || c == '\U{000C}' || c == '\U{00A0}' || c == '\U{FEFF}'
    || c == '\U{1680}' || ('\U{2000}' <= c <= '\U{200A}')
    || c == '\U{2028}' || c == '\U{2029}' || c == '\U{202F}' || c == '\U{205F}'
    || c == '\U{3000}'
  }

  predicate AllWhitespace(s: string) {
    forall i :: 0 <= i < |s| ==> IsWhitespace(s[i])
  }

  /** Removes leading whitespace. */
  function TrimStart(s: string): (r: string)
    ensures |r| <= |s| && r == s[|s| - |r|..]
    ensures AllWhitespace(s[..|s| - |r|])
    ensures r == [] || !IsWhitespace(r[0])
  {
    if |s| == 0 || !IsWhitespace(s[0]) then s
    else
      var r := TrimStart(s[1..]);
      assert s[1..][..|s| - 1 - |r|] == s[1..|s| - |r|];
      r
  }

  /** Removes trailing whitespace. */
  function TrimEnd(s: string): (r: string)
    ensures |r| <= |s| && r == s[..|r|]
    ensures AllWhitespace(s[|r|..])
    ensures r == [] || !IsWhitespace(r[|r| - 1])
  {
    if |s| == 0 || !IsWhitespace(s[|s| - 1]) then s
    else
      var r := TrimEnd(s[..|s| - 1]);
      r
  }

  /** `String.prototype.trim`: drops the whitespace at both ends. */
  function Trim(s: string): (r: string)
    ensures |r| <= |s|
    ensures r == [] <==> AllWhitespace(s)
    ensures r == [] || (!IsWhitespace(r[0]) && !IsWhitespace(r[|r| - 1]))
  {
    TrimEmptyIffAllWhitespace(s);
    TrimEnd(TrimStart(s))
  }

  /** Trimming leaves nothing exactly when every character is whitespace. */
  lemma {:induction false} TrimEmptyIffAllWhitespace(s: string)
    ensures TrimEnd(TrimStart(s)) == [] <==> AllWhitespace(s)
  {
    var t := TrimStart(s);
    var k := |s| - |t|;
    if AllWhitespace(s) {
      assert AllWhitespace(t) by {
        forall i | 0 <= i < |t| ensures IsWhitespace(t[i]) {
          assert t[i] == s[k + i];
        }
      }
    }
    if TrimEnd(t) == [] {
      assert t[0..] == t;
      assert AllWhitespace(s[..k]);
      forall i | 0 <= i < |s| ensures IsWhitespace(s[i]) {
        if i < k {
          assert s[i] == s[..k][i];
        } else {
          assert s[i] == t[i - k];
        }
      }
    }
  }

  predicate IsAsciiAlnum(c: char) {
    ('a' <= c <= 'z') || ('A' <= c <= 'Z') || ('0' <= c <= '9')
  }

  /** `toLowerCase` restricted to the ASCII letters; other characters are kept. */
  function ToLowerAscii(c: char): (r: char)
    ensures 'A' <= c <= 'Z' ==> 'a' <= r <= 'z' && r as int - c as int == 32
    ensures !('A' <= c <= 'Z') ==> r == c
  {
    if 'A' <= c <= 'Z' then (c as int + 32) as char else c
  }
}

=== FILE: json_extract.dfy ===
/**
 * Recovering a JSON object embedded in free model text (server.js
 * `extractAndParseJson`): the slice from the first `{` to the last `}`,
 * handed to `JSON.parse`. The parser is an oracle: it maps a string either
 * to a value or to the message of the exception it throws.
 */
module JsonExtract {
  import opened Wrappers

  /** `s.indexOf(c)`: the position of the first `c`, or -1. */
  function IndexOf(s: string, c: char): (i: int)
    ensures -1 <= i < |s|
    ensures i == -1 <==> c !in s
    ensures 0 <= i ==> s[i] == c && forall m :: 0 <= m < i ==> s[m] != c
  {
    if |s| == 0 then -1
    else if s[0] == c then 0
    else
      var i := IndexOf(s[1..], c);
      assert forall m :: 1 <= m < |s| ==> s[m] == s[1..][m - 1];
      if i == -1 then -1 else i + 1
  }

  /** `s.lastIndexOf(c)`: the position of the last `c`, or -1. */
  function LastIndexOf(s: string, c: char): (i: int)
    ensures -1 <= i < |s|
    ensures i == -1 <==> c !in s
    ensures 0 <= i ==> s[i] == c && forall m :: i < m < |s| ==> s[m] != c
  {
    if |s| == 0 then -1
    else if s[|s| - 1] == c then |s| - 1
    else
      var t := s[..|s| - 1];
      var i := LastIndexOf(t, c);
      assert forall m :: 0 <= m < |t| ==> s[m] == t[m];
      assert s == t + [s[|s| - 1]];
      i
  }

  const NoObjectMessage := "No valid JSON object found in the model response."
  const ParseFailurePrefix := "Failed to parse the extracted JSON object: "
  const RawStringInfix := ". Raw string: "

  /** Some `{` comes before some `}` in `text`. */
  predicate HasBraceSpan(text: string) {
    exists i, j :: 0 <= i < j < |text| && text[i] == '{' && text[j] == '}'
  }

  /**
   * The text `JSON.parse` is given: from the first `{` to the last `}`
   * inclusive. It fails, with the fixed message, exactly when no `{` comes
   * before a `}`; otherwise the slice starts with `{` and ends with `}`.
   */
  function ExtractObjectText(text: string): (r: Result<string, string>)
    ensures r.Failure? <==> !HasBraceSpan(text)
    ensures r.Failure? ==> r.error == NoObjectMessage
    ensures r.Success? ==> 2 <= |r.value| && r.value[0] == '{' && r.value[|r.value| - 1] == '}'
  {
    var start := IndexOf(text, '{');
    var end := LastIndexOf(text, '}');
    SpanIffBracesInOrder(text);
    if start == -1 || end == -1 || end < start then
      Failure(NoObjectMessage)
    else
      Success(text[start..end + 1])
  }

  /** A successful extraction cuts the slice out of the text with no `{` before
      it and no `}` after it. */
  lemma ExtractionSplitsText(text: string)
    requires ExtractObjectText(text).Success?
    ensures exists prefix, suffix ::
      text == prefix + ExtractObjectText(text).value + suffix && '{' !in prefix && '}' !in suffix
  {
    var start := IndexOf(text, '{');
    var end := LastIndexOf(text, '}');
    SpanIffBracesInOrder(text);
    var middle := text[start..end + 1];
    assert ExtractObjectText(text) == Success(middle);
    SplitWitness(text, start, end);
  }

  lemma SplitWitness(text: string, start: int, end: int)
    requires 0 <= start <= end < |text|
    requires text[start] == '{' && forall m :: 0 <= m < start ==> text[m] != '{'
    requires text[end] == '}' && forall m :: end < m < |text| ==> text[m] != '}'
    ensures exists prefix, suffix :: text == prefix + text[start..end + 1] + suffix && '{' !in prefix && '}' !in suffix
  {
    SliceSplitsText(text, start, end);
    var prefix, suffix := text[..start], text[end + 1..];
    assert text == prefix + text[start..end + 1] + suffix && '{' !in prefix && '}' !in suffix;
  }

  /** Cutting at the first `{` and after the last `}` leaves no `{` before the
      cut and no `}` after it. */
  lemma SliceSplitsText(text: string, start: int, end: int)
    requires 0 <= start <= end < |text|
    requires text[start] == '{' && forall m :: 0 <= m < start ==> text[m] != '{'
    requires text[end] == '}' && forall m :: end < m < |text| ==> text[m] != '}'
    ensures var prefix, suffix := text[..start], text[end + 1..];
      && text == prefix + text[start..end + 1] + suffix
      && '{' !in prefix && '}' !in suffix
    ensures var middle := text[start..end + 1];
      2 <= |middle| && middle[0] == '{' && middle[|middle| - 1] == '}'
  {
  }

  /** The guard of `extractAndParseJson` rejects exactly the texts with no `{` before a `}`. */
  lemma SpanIffBracesInOrder(text: string)
    ensures HasBraceSpan(text) <==>
      var start, end := IndexOf(text, '{'), LastIndexOf(text, '}');
      start != -1 && end != -1 && start <= end
  {
    var start, end := IndexOf(text, '{'), LastIndexOf(text, '}');
    if HasBraceSpan(text) {
      var i, j :| 0 <= i < j < |text| && text[i] == '{' && text[j] == '}';
      assert text[i] in text && text[j] in text;
    }
  }

  /** The extracted slice is the unique middle part of any split of the text into
      a prefix without `{`, an object-shaped middle, and a suffix without `}`. */
  lemma ExtractionIsTheOutermostSpan(text: string, prefix: string, middle: string, suffix: string)
    requires text == prefix + middle + suffix
    requires '{' !in prefix && '}' !in suffix
    requires 2 <= |middle| && middle[0] == '{' && middle[|middle| - 1] == '}'
    ensures ExtractObjectText(text) == Success(middle)
  {
    var a, b := |prefix|, |prefix| + |middle| - 1;
    assert text[a] == '{' && text[b] == '}';
    assert text[..a] == prefix;
    assert text[b + 1..] == suffix;
    var start := IndexOf(text, '{');
    var end := LastIndexOf(text, '}');
    assert forall m :: 0 <= m < a ==> text[m] == prefix[m];
    assert forall m :: b < m < |text| ==> text[m] == suffix[m - b - 1];
    assert text[a..b + 1] == middle;
  }

  /** The message `extractAndParseJson` throws when `JSON.parse` rejects the slice. */
  function ParseFailureMessage(parserMessage: string, raw: string): string {
    ParseFailurePrefix + parserMessage + RawStringInfix + raw
  }

  /**
   * `extractAndParseJson`. A parse failure is reported with a message that
   * ends with the rejected slice; a success is the parser's value for the
   * slice.
   */
  function ExtractAndParse<J>(text: string, parse: string -> Result<J, string>): (r: Result<J, string>)
    ensures !HasBraceSpan(text) ==> r == Failure(NoObjectMessage)
    ensures HasBraceSpan(text) ==>
      var raw := ExtractObjectText(text).value;
      match parse(raw)
      case Success(v) => r == Success(v)
      case Failure(m) => r.Failure? && IsPrefixOf(ParseFailurePrefix, r.error) && IsSuffixOf(raw, r.error)
  {
    match ExtractObjectText(text)
    case Failure(e) => Failure(e)
    case Success(raw) =>
      match parse(raw)
      case Success(v) => Success(v)
      case Failure(m) => Failure(ParseFailureMessage(m, raw))
  }

  predicate IsPrefixOf(t: string, s: string) {
    |t| <= |s| && s[..|t|] == t
  }

  predicate IsSuffixOf(t: string, s: string) {
    |t| <= |s| && s[|s| - |t|..] == t
  }

  /** An object embedded in prose is found and cut out. */
  lemma ExampleEmbeddedObject()
    ensures ExtractObjectText("prefix {\"a\":1} suffix") == Success("{\"a\":1}")
  {
    var prefix, middle, suffix := "prefix ", "{\"a\":1}", " suffix";
    assert forall k :: 0 <= k < |prefix| ==> prefix[k] != '{';
    assert forall k :: 0 <= k < |suffix| ==> suffix[k] != '}';
    assert "prefix {\"a\":1} suffix" == prefix + middle + suffix;
    ExtractionIsTheOutermostSpan("prefix {\"a\":1} suffix", prefix, middle, suffix);
  }

  /** Text with no braces, and an object never closed, are rejected before any parse. */
  lemma ExampleRejected<J>(parse: string -> Result<J, string>)
    ensures ExtractAndParse("no braces", parse) == Failure(NoObjectMessage)
    ensures ExtractAndParse("{broken", parse) == Failure(NoObjectMessage)
  {
    var t := "no braces";
    assert forall k :: 0 <= k < |t| ==> t[k] != '{';
    var u := "{broken";
    assert forall k :: 0 <= k < |u| ==> u[k] != '}';
  }
}

=== FILE: pdf_layout.dfy ===
/**
 * The PDF report export of the application component (`handleExportPdf` in
 * App.tsx): the page geometry, the wrapped-text helper, the threat blocks and
 * the fixed section order, and the report's file name.
 *
 * The document is a log of what was drawn, each entry tagged with the page it
 * went on. jsPDF's text metrics are an oracle: how many lines
 * `splitTextToSize` makes of a text in a font at a width, and the width
 * `getTextWidth` reports. Lengths are millimetres, as real numbers.
 */
module PdfLayout {
  import opened Wrappers
  import opened Types
  import opened Js
  import Controller

  const Margin: real := 20.0
  /** A4 as jsPDF defines it (595.28 x 841.89 points), in millimetres. */
  const PageWidth: real := 595.28 * 25.4 / 72.0
  const PageHeight: real := 841.89 * 25.4 / 72.0
  const ContentWidth: real := PageWidth - Margin * 2.0
  /** The lowest y a drawing may reach: the bottom margin. */
  const Bottom: real := PageHeight - Margin

  const DefaultTitle := "Relatório de IA Threat Modeling"
  const NoDescription := "N/A"
  const FilePrefix := "Relatorio-IA-Threat-Modeling-"
  const FallbackName := "analise"
  const ExportFailed := "Não foi possível gerar o relatório em PDF."

  datatype Font = Font(size: real, bold: bool)

  /** jsPDF's measurements for the current document. */
  datatype Metrics = Metrics(lineCount: (string, Font, real) -> nat, textWidth: (string, Font) -> real)

  /** The outcome of loading the preview image into the document. */
  type Pixels = n: nat | n > 0 witness 1
  datatype ImageLoad = Loaded(width: Pixels, height: Pixels) | LoadError

  datatype Item =
    | Label(content: string, x: real, y: real, font: Font, centered: bool)
    | Paragraph(content: string, x: real, y: real, font: Font, lines: nat)
    | Picture(x: real, y: real, width: real, height: real)
    | Frame(x: real, y: real, width: real, height: real)

  datatype Placed = Placed(page: nat, item: Item)

  /** The document: the current page, the active font and everything drawn so far. */
  datatype Doc = Doc(page: nat, font: Font, items: seq<Placed>)

  /** A document together with the vertical cursor. */
  datatype Cursor = Cursor(doc: Doc, y: real)

  datatype Report = Report(doc: Doc, fileName: string)

  /** Nothing has been drawn on a page after the current one. */
  predicate Bounded(d: Doc) {
    forall i :: 0 <= i < |d.items| ==> d.items[i].page <= d.page
  }

  /** Draws one item on the current page. */
  function Put(d: Doc, item: Item): (r: Doc)
    ensures r.page == d.page && r.font == d.font
    ensures r.items == d.items + [Placed(d.page, item)]
    ensures Bounded(d) ==> Bounded(r)
  {
    d.(items := d.items + [Placed(d.page, item)])
  }

  function AddPage(d: Doc): (r: Doc)
    ensures r.page == d.page + 1 && r.items == d.items && r.font == d.font
    ensures Bounded(d) ==> Bounded(r)
  {
    d.(page := d.page + 1)
  }

  /** The height of `lines` lines of a font: a line per size/2.8 millimetres. */
  function TextHeight(lines: nat, f: Font): real {
    lines as real * (f.size / 2.8)
  }

  /** The rule shared by wrapped text, the diagram and the threat blocks: a
      drawing of height `h` asked for at `y` goes on a new page when it would
      cross the bottom margin. */
  predicate Breaks(y: real, h: real) {
    y + h > Bottom
  }

  /** Where such a drawing's top lands. */
  function Top(y: real, h: real): real {
    if Breaks(y, h) then Margin else y
  }

  /** A drawing no taller than an empty page's printable area stays between the
      margins; a taller one crosses the bottom margin even on a fresh page; one
      exactly reaching the bottom margin does not break the page. */
  lemma PlacementStaysInside(y: real, h: real)
    requires Margin <= y
    ensures Margin <= Top(y, h)
    ensures h <= Bottom - Margin <==> Top(y, h) + h <= Bottom
    ensures y + h == Bottom ==> !Breaks(y, h)
  {
  }

  /**
   * `addWrappedText`: sets the font, wraps the text, starts a new page first
   * when the wrapped text would cross the bottom margin, draws it and returns
   * the y below it.
   */
  method AddWrappedText(d: Doc, m: Metrics, text: string, x: real, startY: real, f: Font, maxWidth: real)
    returns (c: Cursor)
    ensures var n := m.lineCount(text, f, maxWidth);
      var h := TextHeight(n, f);
      && c.doc.font == f
      && c.doc.page == (if Breaks(startY, h) then d.page + 1 else d.page)
      && c.doc.items == d.items + [Placed(c.doc.page, Paragraph(text, x, Top(startY, h), f, n))]
      && c.y == Top(startY, h) + h
    ensures Bounded(d) ==> Bounded(c.doc)
  {
    var d1 := d.(font := f);
    var lines := m.lineCount(text, f, maxWidth);
    var h := TextHeight(lines, f);
    var y := startY;
    if y + h > Bottom {
      d1 := AddPage(d1);
      y := Margin;
    }
    c := Cursor(Put(d1, Paragraph(text, x, y, f, lines)), y + h);
  }

  /** The height a threat block reserves: 60mm plus 4mm per line of the bare
      description and mitigation, wrapped in whatever font is active. */
  function BlockHeight(m: Metrics, f: Font, t: Threat): (h: real)
    ensures h >= 60.0
  {
    60.0 + (m.lineCount(t.description, f, ContentWidth - 10.0) * 4) as real
         + (m.lineCount(t.mitigation, f, ContentWidth - 10.0) * 4) as real
  }

  /** The status line interpolates the translation lookup, which prints
      `undefined` for a status outside the enumeration. */
  function StatusText(t: Threat): (r: string)
    ensures StatusOf(t.status).None? ==> r == "Status: undefined"
    ensures forall k: ThreatStatus :: t.status == StatusValue(k) ==> r == "Status: " + StatusLabel(k)
  {
    "Status: " + (match StatusLabelOf(t.status)
                  case Some(name) => name
                  case None => "undefined")
  }

  /** The category line interpolates the translation lookup, which prints
      `undefined` for a string outside the enumeration. */
  function CategoryText(t: Threat): string {
    "Categoria: " + (match CategoryLabel(t.strideCategory)
                     case Some(name) => name
                     case None => "undefined")
  }

  /** The category names the threat-modelling prompt asks for with
      underscores reach the report as `Categoria: undefined`. */
  lemma PromptCategoryNamesPrintUndefined(t: Threat)
    requires t.strideCategory in {"Information_Disclosure", "Denial_of_Service", "Elevation_of_Privilege"}
    ensures CategoryText(t) == "Categoria: undefined"
  {
  }

  /** The status, right-aligned by its width in 14pt bold but drawn in 10pt,
      1mm above the name's baseline. */
  function StatusLabelItem(m: Metrics, innerY: real, t: Threat): (status: Item)
    ensures status.Label? && status.content == StatusText(t) && status.font == Font(10.0, false)
    ensures status.x + m.textWidth(StatusText(t), Font(14.0, true)) == PageWidth - Margin - 5.0
  {
    Label(StatusText(t), PageWidth - Margin - 5.0 - m.textWidth(StatusText(t), Font(14.0, true)), innerY - 1.0, Font(10.0, false), false)
  }

  /** The block's name line and category: the name in 14pt bold, the status,
      and the category in 10pt bold 8mm lower. */
  function BlockHeader(d: Doc, m: Metrics, innerY: real, t: Threat): (r: Doc)
    ensures r.page == d.page && r.font == Font(10.0, true)
    ensures r.items == d.items + [Placed(d.page, Label(t.threatName, Margin + 5.0, innerY, Font(14.0, true), false)),
                                  Placed(d.page, StatusLabelItem(m, innerY, t)),
                                  Placed(d.page, Label(CategoryText(t), Margin + 5.0, innerY + 8.0, Font(10.0, true), false))]
    ensures Bounded(d) ==> Bounded(r)
  {
    var nameFont := Font(14.0, true);
    var d1 := Put(d.(font := nameFont), Label(t.threatName, Margin + 5.0, innerY, nameFont, false));
    var d2 := Put(d1.(font := Font(10.0, false)), StatusLabelItem(m, innerY, t));
    var categoryFont := Font(10.0, true);
    Put(d2.(font := categoryFont), Label(CategoryText(t), Margin + 5.0, innerY + 8.0, categoryFont, false))
  }

  /** What drawing one threat block does to the document, as `ThreatBlock` promises it. */
  predicate BlockDrawn(d: Doc, m: Metrics, y: real, t: Threat, c: Cursor) {
    var n, h := |d.items|, BlockHeight(m, d.font, t);
    && |c.doc.items| == n + 6 && c.doc.items[..n] == d.items
    && c.doc.items[n] == Placed(if Breaks(y, h) then d.page + 1 else d.page, Frame(Margin, Top(y, h), ContentWidth, h))
    && c.doc.items[n + 1].item == Label(t.threatName, Margin + 5.0, Top(y, h) + 10.0, Font(14.0, true), false)
    && c.doc.items[n + 2].item == StatusLabelItem(m, Top(y, h) + 10.0, t)
    && c.doc.page >= c.doc.items[n].page
    && c.doc.page == c.doc.items[n + 5].page
    && c.y == Top(y, h) + h + 10.0
    && c.doc.font == Font(10.0, false)
    && (Bounded(d) ==> Bounded(c.doc))
  }

  /**
   * One threat block: the frame of the reserved height (on a new page when it
   * would cross the bottom margin), the name and status 10mm below its top,
   * the category 8mm lower, the description and mitigation at 10pt from 26mm
   * below. The cursor moves to 10mm below the frame, wherever the texts
   * inside ended.
   */
  method ThreatBlock(d: Doc, m: Metrics, y: real, t: Threat) returns (c: Cursor)
    ensures BlockDrawn(d, m, y, t, c)
  {
    var h := BlockHeight(m, d.font, t);
    var d1 := d;
    var top := y;
    if y + h > Bottom {
      d1 := AddPage(d1);
      top := Margin;
    }
    var d2 := Put(d1, Frame(Margin, top, ContentWidth, h));
    var r := BlockBody(d2, m, top, t);
    assert r.items[..|d.items|] == d.items by {
      assert forall i :: 0 <= i < |d2.items| ==> r.items[i] == d2.items[i];
    }
    c := Cursor(r, top + h + 10.0);
  }

  /** What a block draws inside its frame whose top is `top`: the header 10mm
      below it, then the description and mitigation at 10pt from 26mm below. */
  method BlockBody(d: Doc, m: Metrics, top: real, t: Threat) returns (r: Doc)
    ensures var n := |d.items|;
      && |r.items| == n + 5 && r.items[..n] == d.items
      && r.items[n] == Placed(d.page, Label(t.threatName, Margin + 5.0, top + 10.0, Font(14.0, true), false))
      && r.items[n + 1] == Placed(d.page, StatusLabelItem(m, top + 10.0, t))
      && r.items[n + 2] == Placed(d.page, Label(CategoryText(t), Margin + 5.0, top + 18.0, Font(10.0, true), false))
    ensures var n, small := |d.items|, Font(10.0, false);
      var desc, mit := r.items[n + 3].item, r.items[n + 4].item;
      && desc.Paragraph? && desc.content == "Descrição: " + t.description
      && desc.x == Margin + 5.0 && desc.font == small
      && desc.lines == m.lineCount(desc.content, small, ContentWidth - 10.0)
      && desc.y == Top(top + 26.0, TextHeight(desc.lines, small))
      && mit.Paragraph? && mit.content == "Mitigação: " + t.mitigation
      && mit.x == Margin + 5.0 && mit.font == small
      && mit.lines == m.lineCount(mit.content, small, ContentWidth - 10.0)
      && mit.y == Top(desc.y + TextHeight(desc.lines, small) + 5.0, TextHeight(mit.lines, small))
    ensures r.page >= d.page && r.font == Font(10.0, false)
    ensures r.items[|d.items| + 4].page == r.page
    ensures Bounded(d) ==> Bounded(r)
  {
    var d3 := BlockHeader(d, m, top + 10.0, t);
    var small := Font(10.0, false);
    var c1 := AddWrappedText(d3, m, "Descrição: " + t.description, Margin + 5.0, top + 26.0, small, ContentWidth - 10.0);
    var c2 := AddWrappedText(c1.doc, m, "Mitigação: " + t.mitigation, Margin + 5.0, c1.y + 5.0, small, ContentWidth - 10.0);
    r := c2.doc;
    assert r.items == d3.items + r.items[|d3.items|..];
  }

  /** Two frames do not overlap: the second is on a later page, or on the same
      page at least 10mm below the first. */
  predicate Apart(first: Placed, second: Placed) {
    && first.item.Frame?
    && (|| first.page < second.page
        || (first.page == second.page && first.item.y + first.item.height + 10.0 <= second.item.y))
  }

  /** A frame lies between the margins exactly when it fits an empty page. */
  predicate InsideIffFits(f: Placed) {
    && f.item.Frame?
    && Margin <= f.item.y
    && (f.item.height <= Bottom - Margin <==> f.item.y + f.item.height <= Bottom)
  }

  /** A frame ends at least 10mm above the cursor, or on an earlier page. */
  predicate AboveCursor(f: Placed, c: Cursor) {
    && f.item.Frame?
    && f.page <= c.doc.page
    && (f.page < c.doc.page || f.item.y + f.item.height + 10.0 <= c.y)
  }

  /** The threat section after `k` blocks: the entries are six per block after
      those of `d`, each block's frame and name where they belong. */
  predicate Indexed(d: Doc, m: Metrics, threats: seq<Threat>, k: nat, c: Cursor, frames: seq<Placed>) {
    && k <= |threats| && |frames| == k
    && |c.doc.items| == |d.items| + 6 * k && c.doc.items[..|d.items|] == d.items
    && (forall j :: 0 <= j < k ==> c.doc.items[|d.items| + 6 * j] == frames[j] && frames[j].item.Frame?)
    && (forall j :: 0 <= j < k ==>
          c.doc.items[|d.items| + 6 * j + 1].item == Label(threats[j].threatName, Margin + 5.0, frames[j].item.y + 10.0, Font(14.0, true), false))
    && (forall j :: 0 <= j < k ==>
          frames[j].item.height == BlockHeight(m, if j == 0 then d.font else Font(10.0, false), threats[j]))
    && (k == 0 ==> c.doc == d)
    && (k > 0 ==> c.doc.font == Font(10.0, false))
  }

  /** Where block `j` of the section is asked for: at the section's start for
      the first, 10mm below the previous frame for the others. */
  function StartY(y: real, frames: seq<Placed>, j: nat): real
    requires j <= |frames| && (j == 0 || frames[j - 1].item.Frame?)
  {
    if j == 0 then y else frames[j - 1].item.y + frames[j - 1].item.height + 10.0
  }

  /** The page block `j` starts from: the section's page for the first, the
      page of the previous block's last text for the others. */
  function StartPage(d: Doc, items: seq<Placed>, j: nat): nat
    requires |d.items| + 6 * j <= |items|
  {
    if j == 0 then d.page else items[|d.items| + 6 * j - 1].page
  }

  /** A frame asked for at `sy` on page `sp`: placed by the page-break rule,
      at the left margin and across the content width. */
  predicate PlacedFrom(sy: real, sp: nat, f: Placed) {
    && f.item.Frame?
    && f == Placed(if Breaks(sy, f.item.height) then sp + 1 else sp,
                   Frame(Margin, Top(sy, f.item.height), ContentWidth, f.item.height))
  }

  /** The frames follow each other: each is placed by the page-break rule
      from where the previous block left the cursor, and the cursor is 10mm
      below the last one, on the page of its last text. */
  predicate Chained(d: Doc, y: real, k: nat, c: Cursor, frames: seq<Placed>)
    requires |frames| == k && |c.doc.items| == |d.items| + 6 * k
    requires forall j :: 0 <= j < k ==> frames[j].item.Frame?
  {
    && (forall j {:trigger StartPage(d, c.doc.items, j)} :: 0 <= j < k ==>
          PlacedFrom(StartY(y, frames, j), StartPage(d, c.doc.items, j), frames[j]))
    && c.y == StartY(y, frames, k)
    && c.doc.page == StartPage(d, c.doc.items, k)
  }

  /** Appending a frame and drawing more entries does not move where the
      earlier blocks started. */
  lemma StartsKept(d: Doc, y: real, frames: seq<Placed>, f: Placed, items: seq<Placed>, longer: seq<Placed>, j: nat)
    requires j <= |frames| && (j == 0 || frames[j - 1].item.Frame?)
    requires |d.items| + 6 * j <= |items| <= |longer| && longer[..|items|] == items
    ensures StartY(y, frames + [f], j) == StartY(y, frames, j)
    ensures StartPage(d, longer, j) == StartPage(d, items, j)
  {
    if j > 0 {
      assert longer[|d.items| + 6 * j - 1] == items[|d.items| + 6 * j - 1];
    }
  }

  lemma ChainedStep(d: Doc, m: Metrics, y: real, threats: seq<Threat>, k: nat, c: Cursor, frames: seq<Placed>, next: Cursor)
    requires k < |threats| && Indexed(d, m, threats, k, c, frames) && Chained(d, y, k, c, frames)
    requires BlockDrawn(c.doc, m, c.y, threats[k], next)
    ensures Indexed(d, m, threats, k + 1, next, frames + [next.doc.items[|c.doc.items|]])
    ensures Chained(d, y, k + 1, next, frames + [next.doc.items[|c.doc.items|]])
  {
    IndexedStep(d, m, threats, k, c, frames, next);
    var frame := next.doc.items[|c.doc.items|];
    forall j | 0 <= j <= k
      ensures StartY(y, frames + [frame], j) == StartY(y, frames, j)
      ensures StartPage(d, next.doc.items, j) == StartPage(d, c.doc.items, j)
    {
      StartsKept(d, y, frames, frame, c.doc.items, next.doc.items, j);
    }
  }

  /** The frames so far: none overlaps another, each lies above the cursor. */
  predicate Spaced(d: Doc, c: Cursor, frames: seq<Placed>) {
    && d.page <= c.doc.page
    && (forall j :: 0 <= j < |frames| ==> d.page <= frames[j].page && AboveCursor(frames[j], c))
    && (forall i, j :: 0 <= i < j < |frames| ==> Apart(frames[i], frames[j]))
  }

  /** With the section starting below the top margin, so does the cursor, and
      every frame lies between the margins exactly when it fits an empty page. */
  predicate Margined(y: real, c: Cursor, frames: seq<Placed>) {
    Margin <= y ==> Margin <= c.y && forall j :: 0 <= j < |frames| ==> InsideIffFits(frames[j])
  }

  lemma IndexedStep(d: Doc, m: Metrics, threats: seq<Threat>, k: nat, c: Cursor, frames: seq<Placed>, next: Cursor)
    requires k < |threats| && Indexed(d, m, threats, k, c, frames) && BlockDrawn(c.doc, m, c.y, threats[k], next)
    ensures Indexed(d, m, threats, k + 1, next, frames + [next.doc.items[|c.doc.items|]])
  {
    assert forall i :: 0 <= i < |c.doc.items| ==> next.doc.items[i] == c.doc.items[i];
    assert next.doc.items[..|d.items|] == d.items;
  }

  lemma SpacedStep(d: Doc, m: Metrics, t: Threat, c: Cursor, frames: seq<Placed>, next: Cursor)
    requires Spaced(d, c, frames) && BlockDrawn(c.doc, m, c.y, t, next)
    ensures Spaced(d, next, frames + [next.doc.items[|c.doc.items|]])
  {
    var frame := next.doc.items[|c.doc.items|];
    assert AboveCursor(frame, next);
    assert forall j :: 0 <= j < |frames| ==> Apart(frames[j], frame) && AboveCursor(frames[j], next);
    var all := frames + [frame];
    assert forall i, j :: 0 <= i < j < |all| ==> Apart(all[i], all[j]) by {
      forall i, j | 0 <= i < j < |all|
        ensures Apart(all[i], all[j])
      {
        if j < |frames| {
          assert Apart(frames[i], frames[j]);
        } else {
          assert Apart(frames[i], frame);
        }
      }
    }
  }

  lemma MarginedStep(d: Doc, m: Metrics, y: real, t: Threat, c: Cursor, frames: seq<Placed>, next: Cursor)
    requires Margined(y, c, frames) && BlockDrawn(c.doc, m, c.y, t, next)
    ensures Margined(y, next, frames + [next.doc.items[|c.doc.items|]])
  {
    if Margin <= y {
      PlacementStaysInside(c.y, BlockHeight(m, c.doc.font, t));
    }
  }

  /** Everything the threat section promises after `k` blocks. */
  predicate SectionSoFar(d: Doc, m: Metrics, y: real, threats: seq<Threat>, k: nat, c: Cursor, frames: seq<Placed>) {
    && Indexed(d, m, threats, k, c, frames)
    && Chained(d, y, k, c, frames)
    && Spaced(d, c, frames)
    && Margined(y, c, frames)
    && (Bounded(d) ==> Bounded(c.doc))
  }

  lemma SectionStarts(d: Doc, m: Metrics, y: real, threats: seq<Threat>)
    ensures SectionSoFar(d, m, y, threats, 0, Cursor(d, y), [])
  {
    assert d.items[..|d.items|] == d.items;
  }

  lemma SectionStep(d: Doc, m: Metrics, y: real, threats: seq<Threat>, k: nat, c: Cursor, frames: seq<Placed>, next: Cursor)
    requires k < |threats| && SectionSoFar(d, m, y, threats, k, c, frames)
    requires BlockDrawn(c.doc, m, c.y, threats[k], next)
    ensures SectionSoFar(d, m, y, threats, k + 1, next, frames + [next.doc.items[|c.doc.items|]])
  {
    ChainedStep(d, m, y, threats, k, c, frames, next);
    SpacedStep(d, m, threats[k], c, frames, next);
    MarginedStep(d, m, y, threats[k], c, frames, next);
  }

  /**
   * The threat section: one block per threat, in list order; `frames` are the
   * blocks' frames. The first block's height is measured in the font left
   * active before the section, the others in the 10pt font the previous block
   * ended with. Each frame is placed 10mm below the previous one, on a new
   * page when it would cross the bottom margin. Frames never overlap, and
   * each one that fits an empty page lies between the margins.
   */
  method ThreatBlocks(d: Doc, m: Metrics, y: real, threats: seq<Threat>) returns (c: Cursor, frames: seq<Placed>)
    ensures Indexed(d, m, threats, |threats|, c, frames)
    ensures Chained(d, y, |threats|, c, frames)
    ensures Spaced(d, c, frames)
    ensures Margined(y, c, frames)
    ensures Bounded(d) ==> Bounded(c.doc)
  {
    c := Cursor(d, y);
    frames := [];
    SectionStarts(d, m, y, threats);
    var k := 0;
    while k < |threats|
      invariant k <= |threats|
      invariant SectionSoFar(d, m, y, threats, k, c, frames)
    {
      var next := ThreatBlock(c.doc, m, c.y, threats[k]);
      SectionStep(d, m, y, threats, k, c, frames, next);
      frames := frames + [next.doc.items[|c.doc.items|]];
      c := next;
      k := k + 1;
    }
  }

  /** The drawn height of a loaded image scaled to the content width:
      `contentWidth / (width / height)`. */
  function ImageHeight(w: Pixels, h: Pixels): (r: real)
    ensures r > 0.0
  {
    assert ContentWidth > 0.0;
    ContentWidth / (w as real / h as real)
  }

  /** The drawn picture keeps the image's aspect ratio. */
  lemma PictureKeepsAspectRatio(w: Pixels, h: Pixels)
    ensures ContentWidth / ImageHeight(w, h) == w as real / h as real
    ensures ImageHeight(w, h) == ContentWidth * h as real / w as real
  {
    var ratio := w as real / h as real;
    assert ratio > 0.0;
    assert ImageHeight(w, h) * ratio == ContentWidth;
  }

  /** The diagram: scaled to the content width, on a new page when it would
      cross the bottom margin; skipped when it fails to load. */
  method ImageBlock(d: Doc, y: real, image: ImageLoad) returns (c: Cursor)
    ensures image.LoadError? ==> c == Cursor(d, y)
    ensures image.Loaded? ==>
      var h := ImageHeight(image.width, image.height);
      && c.doc.page == (if Breaks(y, h) then d.page + 1 else d.page)
      && c.doc.items == d.items + [Placed(c.doc.page, Picture(Margin, Top(y, h), ContentWidth, h))]
      && c.y == Top(y, h) + h
    ensures c.doc.font == d.font
    ensures Bounded(d) ==> Bounded(c.doc)
  {
    match image
    case LoadError =>
      c := Cursor(d, y);
    case Loaded(w, ht) =>
      var h := ImageHeight(w, ht);
      var d1 := d;
      var top := y;
      if y + h > Bottom {
        d1 := AddPage(d1);
        top := Margin;
      }
      c := Cursor(Put(d1, Picture(Margin, top, ContentWidth, h)), top + h);
  }

  /** `title.replace(/[^a-z0-9]/gi, '_').toLowerCase()`. */
  function Slug(title: string): (r: string)
    ensures |r| == |title|
    ensures forall i :: 0 <= i < |r| ==> ('a' <= r[i] <= 'z' || '0' <= r[i] <= '9' || r[i] == '_')
    ensures forall i :: 0 <= i < |r| ==> (r[i] == '_' <==> !IsAsciiAlnum(title[i]))
  {
    if |title| == 0 then []
    else [if IsAsciiAlnum(title[0]) then ToLowerAscii(title[0]) else '_'] + Slug(title[1..])
  }

  /** Letters and digits survive the slug up to case. */
  lemma SlugKeepsAlphanumerics(title: string, i: nat)
    requires i < |title| && IsAsciiAlnum(title[i])
    ensures Slug(title)[i] == ToLowerAscii(title[i])
  {
    if i > 0 {
      SlugKeepsAlphanumerics(title[1..], i - 1);
    }
  }

  /** A slug is its own slug. */
  lemma {:induction false} SlugIsIdempotent(title: string)
    ensures Slug(Slug(title)) == Slug(title)
  {
    if |title| > 0 {
      SlugIsIdempotent(title[1..]);
      assert Slug(title)[1..] == Slug(title[1..]);
    }
  }

  function FileName(title: string): (r: string)
    ensures IsPrefix(FilePrefix, r) && IsSuffix(".pdf", r)
  {
    var slug := Slug(title);
    FilePrefix + (if slug == "" then FallbackName else slug) + ".pdf"
  }

  predicate IsPrefix(p: string, s: string) {
    |p| <= |s| && s[..|p|] == p
  }

  /** The file is named after the title's slug exactly when there is a title. */
  lemma FileNameFallback(title: string)
    ensures title == "" ==> FileName(title) == FilePrefix + FallbackName + ".pdf"
    ensures title != "" ==> FileName(title) == FilePrefix + Slug(title) + ".pdf"
  {
  }

  /** `imagePreview` is truthy: present and not the empty string. */
  predicate ShowsDiagram(s: Controller.AppState) {
    s.imagePreview.Some? && s.imagePreview.value != ""
  }

  /** How many entries the diagram adds: its caption, and the picture when it loads. */
  function DiagramEntries(s: Controller.AppState, image: ImageLoad): nat {
    if !ShowsDiagram(s) then 0 else if image.Loaded? then 2 else 1
  }

  function ReportTitle(s: Controller.AppState): string {
    if s.title == "" then DefaultTitle else s.title
  }

  function ReportedThreats(s: Controller.AppState): seq<Threat> {
    if s.analysisResult.Some? then s.analysisResult.value.threats else []
  }

  /** Entry `k` opens a page: everything drawn before it is on an earlier page. */
  predicate StartsPage(items: seq<Placed>, k: nat) {
    k < |items| && forall i :: 0 <= i < k ==> items[i].page < items[k].page
  }

  lemma StartsPageKept(a: seq<Placed>, b: seq<Placed>, k: nat)
    requires StartsPage(a, k) && |a| <= |b| && b[..|a|] == a
    ensures StartsPage(b, k)
  {
    assert forall i :: 0 <= i <= k ==> b[i] == a[i];
  }

  /** The title page: report title, date, the input heading, type and classification. */
  method TitlePage(s: Controller.AppState, date: string) returns (d: Doc)
    ensures d.page == 0 && Bounded(d) && |d.items| == 5
    ensures d.items[0] == Placed(0, Label(ReportTitle(s), PageWidth / 2.0, Margin, Font(24.0, true), true))
  {
    var big := Font(24.0, true);
    var body := Font(12.0, false);
    var heading := Font(16.0, true);
    d := Put(Doc(0, big, []), Label(ReportTitle(s), PageWidth / 2.0, Margin, big, true));
    d := Put(d.(font := body), Label("Relatório Gerado: " + date, PageWidth / 2.0, Margin + 15.0, body, true));
    d := Put(d.(font := heading), Label("Dados de Entrada da Análise", Margin, Margin + 35.0, heading, false));
    d := Put(d.(font := body), Label("Tipo de Aplicação: " + AppTypeLabel(s.appType), Margin, Margin + 45.0, body, false));
    d := Put(d, Label("Classificação dos Dados: " + ClassificationLabel(s.dataClassification), Margin, Margin + 52.0, body, false));
  }

  /** Starts a section on a new page with its 18pt bold heading; the cursor is 10mm below. */
  function Section(d: Doc, heading: string): (c: Cursor)
    ensures c.doc.page == d.page + 1 && c.doc.font == Font(18.0, true) && c.y == Margin + 10.0
    ensures c.doc.items == d.items + [Placed(d.page + 1, Label(heading, Margin, Margin, Font(18.0, true), false))]
    ensures Bounded(d) ==> Bounded(c.doc) && StartsPage(c.doc.items, |d.items|)
  {
    var f := Font(18.0, true);
    Cursor(Put(AddPage(d).(font := f), Label(heading, Margin, Margin, f, false)), Margin + 10.0)
  }

  /** The architecture section: the user's description (or `N/A`), the diagram
      when there is a preview, the AI description. */
  method ArchitectureSection(d: Doc, s: Controller.AppState, image: ImageLoad, m: Metrics) returns (r: Doc)
    ensures var n := |d.items|;
      && |r.items| == n + 3 + DiagramEntries(s, image) && r.items[..n] == d.items
      && r.items[n] == Placed(d.page + 1, Label("Arquitetura do Sistema", Margin, Margin, Font(18.0, true), false))
      && r.items[n + 1].item.Paragraph?
      && r.items[n + 1].item.content == "Descrição Fornecida pelo Usuário: "
           + (if s.architectureDescription == "" then NoDescription else s.architectureDescription)
      && (ShowsDiagram(s) ==> r.items[n + 2].item.Paragraph? && r.items[n + 2].item.content == "Diagrama Fornecido:")
      && (ShowsDiagram(s) && image.Loaded? ==>
            r.items[n + 3].item == Picture(Margin, r.items[n + 3].item.y, ContentWidth, ImageHeight(image.width, image.height)))
      && r.items[|r.items| - 1].item.Paragraph?
      && r.items[|r.items| - 1].item.content == "Descrição Gerada pela IA: " + s.aiDescription
    ensures r.page > d.page
    ensures Bounded(d) ==> Bounded(r) && StartsPage(r.items, |d.items|)
  {
    var body := Font(12.0, false);
    var c := Section(d, "Arquitetura do Sistema");
    var given := if s.architectureDescription == "" then NoDescription else s.architectureDescription;
    c := AddWrappedText(c.doc, m, "Descrição Fornecida pelo Usuário: " + given, Margin, c.y, body, ContentWidth);
    var y := c.y + 10.0;
    if ShowsDiagram(s) {
      c := AddWrappedText(c.doc, m, "Diagrama Fornecido:", Margin, y, body, ContentWidth);
      c := ImageBlock(c.doc, c.y + 5.0, image);
      y := c.y + 10.0;
    }
    var last := AddWrappedText(c.doc, m, "Descrição Gerada pela IA: " + s.aiDescription, Margin, y, body, ContentWidth);
    r := last.doc;
    assert r.items[..|d.items| + 1] == d.items + [Placed(d.page + 1, Label("Arquitetura do Sistema", Margin, Margin, Font(18.0, true), false))];
    if Bounded(d) {
      StartsPageKept(d.items + [r.items[|d.items|]], r.items, |d.items|);
    }
  }

  /** Everything before the threat blocks: the title page, then the
      architecture, data-flow and threat sections, each opening a new page. */
  method Sections(s: Controller.AppState, date: string, image: ImageLoad, m: Metrics) returns (c: Cursor)
    ensures var items, dd := c.doc.items, DiagramEntries(s, image);
      && Bounded(c.doc)
      && |items| == 11 + dd
      && c.y == Margin + 15.0 && c.doc.font == Font(18.0, true)
      && items[0] == Placed(0, Label(ReportTitle(s), PageWidth / 2.0, Margin, Font(24.0, true), true))
      && StartsPage(items, 5) && items[5].item == Label("Arquitetura do Sistema", Margin, Margin, Font(18.0, true), false)
      && StartsPage(items, 8 + dd)
      && items[8 + dd].item == Label("Detalhes do Diagrama de Fluxo de Dados (DFD)", Margin, Margin, Font(18.0, true), false)
      && StartsPage(items, 10 + dd)
      && items[10 + dd].item == Label("Resultados da Análise de Ameaças", Margin, Margin, Font(18.0, true), false)
      && (ShowsDiagram(s) && image.Loaded? ==>
            items[8].item == Picture(Margin, items[8].item.y, ContentWidth, ImageHeight(image.width, image.height)))
  {
    var d0 := TitlePage(s, date);
    var d1 := ArchitectureSection(d0, s, image, m);
    var c2 := Section(d1, "Detalhes do Diagrama de Fluxo de Dados (DFD)");
    var dfd := AddWrappedText(c2.doc, m, s.dfdDescription, Margin, c2.y, Font(11.0, false), ContentWidth);
    var c3 := Section(dfd.doc, "Resultados da Análise de Ameaças");
    c := Cursor(c3.doc, c3.y + 5.0);
    StartsPageKept(d1.items, c.doc.items, 5);
    StartsPageKept(c2.doc.items, c.doc.items, |d1.items|);
  }

  /**
   * The whole export: the sections in their fixed order, then one block per
   * threat in list order, each named in 14pt bold; the diagram only when
   * there is a preview that loads; and the file name.
   */
  method ExportPdf(s: Controller.AppState, date: string, image: ImageLoad, m: Metrics) returns (r: Report)
    ensures var items, dd, threats := r.doc.items, DiagramEntries(s, image), ReportedThreats(s);
      && Bounded(r.doc)
      && |items| == 11 + dd + 6 * |threats|
      && items[0] == Placed(0, Label(ReportTitle(s), PageWidth / 2.0, Margin, Font(24.0, true), true))
      && StartsPage(items, 5) && items[5].item == Label("Arquitetura do Sistema", Margin, Margin, Font(18.0, true), false)
      && StartsPage(items, 8 + dd)
      && items[8 + dd].item == Label("Detalhes do Diagrama de Fluxo de Dados (DFD)", Margin, Margin, Font(18.0, true), false)
      && StartsPage(items, 10 + dd)
      && items[10 + dd].item == Label("Resultados da Análise de Ameaças", Margin, Margin, Font(18.0, true), false)
      && (ShowsDiagram(s) && image.Loaded? ==>
            items[8].item == Picture(Margin, items[8].item.y, ContentWidth, ImageHeight(image.width, image.height)))
      && (forall j :: 0 <= j < |threats| ==>
            items[11 + dd + 6 * j + 1].item.Label? && items[11 + dd + 6 * j + 1].item.content == threats[j].threatName
            && items[11 + dd + 6 * j + 1].item.font == Font(14.0, true))
    ensures r.fileName == FileName(s.title)
  {
    var c3 := Sections(s, date, image, m);
    var c4, frames := ThreatBlocks(c3.doc, m, c3.y, ReportedThreats(s));
    r := Report(c4.doc, FileName(s.title));
    var items := c4.doc.items;
    forall j | 0 <= j < |frames|
      ensures items[|c3.doc.items| + 6 * j + 1].item.Label?
      ensures items[|c3.doc.items| + 6 * j + 1].item.content == ReportedThreats(s)[j].threatName
      ensures items[|c3.doc.items| + 6 * j + 1].item.font == Font(14.0, true)
    {
      assert frames[j].item.Frame?;
    }
    assert forall i :: 0 <= i < |c3.doc.items| ==> items[i] == c3.doc.items[i];
  }

  /** The component state around the export: the flag ends cleared, and a
      failure inside jsPDF shows the export error; nothing else changes. */
  function FinishExport(s: Controller.AppState, failed: bool): (r: Controller.AppState)
    ensures !r.isExportingPdf
    ensures failed ==> r.error == Some(ExportFailed)
    ensures !failed ==> r.error == s.error
    ensures r.(isExportingPdf := s.isExportingPdf, error := s.error) == s
  {
    var busy := s.(isExportingPdf := true);
    var after := if failed then busy.(error := Some(ExportFailed)) else busy;
    after.(isExportingPdf := false)
  }
}

=== FILE: retry.dfy ===
/**
 * The exponential-backoff wrapper the server puts around every model
 * invocation (server.js `retry`). The wrapped asynchronous call is a
 * script: `call(k)` is the outcome of its k-th invocation. Sleeping is not
 * performed; the delays that would have been slept are recorded instead.
 */
module Retry {

  /** What one invocation of the wrapped call does: return a value or throw
      an error object with a `name` and a `message`. */
  datatype Outcome<+T> = Returned(value: T) | Thrown(name: string, message: string)

  const ThrottlingException := "ThrottlingException"
  const TooManyRequestsException := "TooManyRequestsException"
  const ProvisionedThroughputExceededException := "ProvisionedThroughputExceededException"

  /** The three error names that mean "over capacity, try again later". */
  predicate IsCapacityError(name: string) {
    name == ThrottlingException
    || name == TooManyRequestsException
    || name == ProvisionedThroughputExceededException
  }

  predicate IsTransient<T>(o: Outcome<T>) {
    o.Thrown? && IsCapacityError(o.name)
  }

  /** The observable behaviour of one `retry` invocation: the final outcome
      (value returned or error rethrown), how many times the wrapped call was
      invoked, and the delays slept between invocations, in order. */
  datatype Run<+T> = Run(result: Outcome<T>, calls: nat, delays: seq<int>)

  const DefaultRetries := 5
  const DefaultDelay := 1000

  function Pow2(n: nat): (p: nat)
    ensures p >= 1
  {
    if n == 0 then 1 else 2 * Pow2(n - 1)
  }

  /** The retry budget: `retries > 0` is the guard, so a non-positive count allows none. */
  function Budget(retries: int): nat {
    if retries > 0 then retries else 0
  }

  /**
   * `retry(fn, retries, delay)` where `fn`'s invocations from the `first`-th
   * on are given by `call`. The contract characterises the run completely:
   * the calls before the last all threw a capacity error, the last call's
   * outcome is what `retry` returns or rethrows, the k-th sleep lasts
   * `delay * 2^k`, and the run stops early only at an outcome that is not
   * a capacity error.
   */
  function RetryFrom<T>(call: nat -> Outcome<T>, first: nat, retries: int, delay: int): (run: Run<T>)
    decreases Budget(retries)
    ensures 1 <= run.calls <= Budget(retries) + 1
    ensures |run.delays| == run.calls - 1
    ensures run.delays == Backoff(delay, run.calls - 1)
    ensures forall k :: first <= k < first + run.calls - 1 ==> IsTransient(call(k))
    ensures run.result == call(first + run.calls - 1)
    ensures IsTransient(run.result) ==> run.calls == Budget(retries) + 1
  {
    var o := call(first);
    if o.Thrown? && retries > 0 && IsCapacityError(o.name) then
      var rest := RetryFrom(call, first + 1, retries - 1, delay * 2);
      Run(rest.result, rest.calls + 1, [delay] + rest.delays)
    else
      Run(o, 1, [])
  }

  /** `retry(fn)` with its default arguments: 5 retries, starting at 1000 ms. */
  function RetryDefault<T>(call: nat -> Outcome<T>): (run: Run<T>)
    ensures 1 <= run.calls <= 6 && |run.delays| == run.calls - 1
    ensures run.delays == Backoff(DefaultDelay, run.calls - 1)
    ensures run.result == call(run.calls - 1)
    ensures forall k :: 0 <= k < run.calls - 1 ==> IsTransient(call(k))
  {
    RetryFrom(call, 0, DefaultRetries, DefaultDelay)
  }

  function Sum(s: seq<int>): int {
    if |s| == 0 then 0 else s[0] + Sum(s[1..])
  }

  /** An error that is not a capacity error is rethrown after exactly one call, with no sleep. */
  lemma NonTransientErrorIsRethrownAtOnce<T>(call: nat -> Outcome<T>, first: nat, retries: int, delay: int)
    requires call(first).Thrown? && !IsCapacityError(call(first).name)
    ensures var run := RetryFrom(call, first, retries, delay);
      run.calls == 1 && run.delays == [] && run.result == call(first)
  {
  }

  /** A successful call's value is returned, and nothing is called after it. */
  lemma FirstSuccessIsReturned<T>(call: nat -> Outcome<T>, first: nat, retries: int, delay: int, j: nat)
    requires j <= Budget(retries)
    requires forall k :: first <= k < first + j ==> IsTransient(call(k))
    requires call(first + j).Returned?
    ensures var run := RetryFrom(call, first, retries, delay);
      run.calls == j + 1 && run.result == call(first + j) && |run.delays| == j
  {
    var run := RetryFrom(call, first, retries, delay);
    var last: nat := first + run.calls - 1;
    assert run.calls < j + 1 ==> IsTransient(call(last));
    var success: nat := first + j;
    assert run.calls > j + 1 ==> IsTransient(call(success));
  }

  /** The delays of `n` sleeps starting at `delay`, doubling each time. */
  function Backoff(delay: int, n: nat): (s: seq<int>)
    ensures |s| == n
    decreases n
  {
    if n == 0 then [] else [delay] + Backoff(delay * 2, n - 1)
  }

  /** The k-th backoff delay is `delay * 2^k`. */
  lemma {:induction false} BackoffDoubles(delay: int, n: nat)
    ensures forall k :: 0 <= k < n ==> Backoff(delay, n)[k] == delay * Pow2(k)
    decreases n
  {
    if n > 0 {
      BackoffDoubles(delay * 2, n - 1);
      var s := Backoff(delay, n);
      forall k | 1 <= k < n ensures s[k] == delay * Pow2(k) {
        var p := Pow2(k - 1);
        assert s[k] == Backoff(delay * 2, n - 1)[k - 1];
        assert s[k] == (delay * 2) * p;
        assert Pow2(k) == 2 * p;
        assert (delay * 2) * p == delay * (2 * p);
      }
    }
  }

  /** The n backoff delays add up to `delay * (2^n - 1)`. */
  lemma {:induction false} BackoffTotal(delay: int, n: nat)
    ensures Sum(Backoff(delay, n)) == delay * (Pow2(n) - 1)
    decreases n
  {
    if n > 0 {
      BackoffTotal(delay * 2, n - 1);
      var s := Backoff(delay, n);
      var p := Pow2(n - 1);
      assert s[1..] == Backoff(delay * 2, n - 1);
      assert Sum(s) == delay + (delay * 2) * (p - 1);
      assert (delay * 2) * (p - 1) == delay * (2 * p) - delay * 2;
      assert Pow2(n) == 2 * p;
    }
  }

  /**
   * A call that keeps failing with a capacity error is invoked exactly
   * `retries + 1` times; `retry` sleeps `retries` times, `delay * (2^retries - 1)`
   * ms in all, and then rethrows the last error.
   */
  lemma PermanentThrottling<T>(call: nat -> Outcome<T>, first: nat, retries: nat, delay: int)
    requires forall k :: first <= k ==> IsTransient(call(k))
    ensures var run := RetryFrom(call, first, retries, delay);
      && run.calls == retries + 1
      && run.delays == Backoff(delay, retries)
      && Sum(run.delays) == delay * (Pow2(retries) - 1)
      && run.result == call(first + retries)
  {
    var run := RetryFrom(call, first, retries, delay);
    assert IsTransient(run.result);
    BackoffTotal(delay, retries);
  }

  /** With the default arguments a permanently throttled call is made six
      times, with sleeps of 1, 2, 4, 8 and 16 seconds in between. */
  lemma DefaultSchedule<T>(call: nat -> Outcome<T>)
    requires forall k :: IsTransient(call(k))
    ensures var run := RetryDefault(call);
      && run.calls == 6
      && run.delays == [1000, 2000, 4000, 8000, 16000]
      && Sum(run.delays) == 31000
      && run.result == call(5)
  {
    PermanentThrottling(call, 0, 5, 1000);
    assert Pow2(5) == 32;
    assert Backoff(1000, 5) == [1000, 2000, 4000, 8000, 16000];
  }
}

=== FILE: server.dfy ===
/**
 * The `POST /api/generate` handler of the server: validates the prompt,
 * assembles the model message, invokes the model through `retry` and, when
 * asked, reduces the answer to the JSON object embedded in it.
 *
 * The model transport is a script: `bedrock(k)` is the outcome of the k-th
 * send, already reduced to the text of the first content block of the
 * answer. `JSON.parse` and `JSON.stringify` are oracles.
 */
module Server {
  import opened Wrappers
  import Retry
  import JsonExtract

  /** An image as the client forwards it: a MIME type and base64 data. */
  datatype ImagePayload = ImagePayload(mimeType: string, data: string)

  /** The JSON body of the request as the handler reads it; `prompt` may be absent. */
  datatype GenerateBody = GenerateBody(prompt: Option<string>, expectJson: bool, imagePayload: Option<ImagePayload>)

  datatype ContentBlock = ImageBlock(mediaType: string, data: string) | TextBlock(text: string)

  datatype Message = Message(role: string, content: seq<ContentBlock>)

  /** The body of the model invocation. */
  datatype InvokeParams = InvokeParams(modelId: string, anthropicVersion: string, maxTokens: nat, messages: seq<Message>)

  datatype ReplyBody = Generated(response: string) | ErrorReply(error: string, details: Option<string>)

  datatype Reply = Reply(status: nat, body: ReplyBody)

  /** What one request does: the reply, the invocation it sent (if any), how
      many times the model was called and the back-off delays in between. */
  datatype Exchange = Exchange(reply: Reply, invoked: Option<InvokeParams>, calls: nat, delays: seq<int>)

  const ModelId := "anthropic.claude-3-sonnet-20240229-v1:0"
  const AnthropicVersion := "bedrock-2023-05-31"
  const MaxTokens := 4096
  const PromptRequired := "Prompt is required"
  const InvokeFailed := "Failed to invoke Bedrock model"

  /** `!prompt`: an absent or empty prompt is falsy. */
  predicate PromptMissing(body: GenerateBody) {
    body.prompt.None? || body.prompt.value == ""
  }

  /** The content of the single user message: the image block first, when an
      image is present, and the prompt text last. */
  function MessageContent(prompt: string, image: Option<ImagePayload>): (content: seq<ContentBlock>)
    ensures image.None? ==> content == [TextBlock(prompt)]
    ensures image.Some? ==> content == [ImageBlock(image.value.mimeType, image.value.data), TextBlock(prompt)]
  {
    var head := if image.Some? then [ImageBlock(image.value.mimeType, image.value.data)] else [];
    head + [TextBlock(prompt)]
  }

  /** The invocation: the fixed model, API version and token limit, and one
      user message carrying the content. */
  function Params(prompt: string, image: Option<ImagePayload>): (p: InvokeParams)
    ensures p.modelId == ModelId && p.anthropicVersion == AnthropicVersion && p.maxTokens == 4096
    ensures |p.messages| == 1 && p.messages[0].role == "user"
    ensures var content := p.messages[0].content;
      |content| >= 1 && content[|content| - 1] == TextBlock(prompt)
  {
    InvokeParams(ModelId, AnthropicVersion, MaxTokens, [Message("user", MessageContent(prompt, image))])
  }

  /** The 500 reply for a thrown error: fixed error text, the error's message as details. */
  function Internal(message: string): Reply {
    Reply(500, ErrorReply(InvokeFailed, Some(message)))
  }

  /**
   * The handler. A missing prompt is rejected with 400 before the model is
   * called; otherwise the one invocation built from the body is sent under
   * `retry` with its defaults, and any error thrown after the prompt check
   * becomes a 500 carrying the error's message.
   */
  function Generate<J>(
    body: GenerateBody,
    bedrock: nat -> Retry.Outcome<string>,
    parse: string -> Result<J, string>,
    stringify: J -> string): (x: Exchange)
    ensures PromptMissing(body) <==> x.reply.status == 400
    ensures PromptMissing(body) ==>
      x.reply.body == ErrorReply(PromptRequired, None) && x.calls == 0 && x.delays == [] && x.invoked.None?
    ensures !PromptMissing(body) ==>
      && x.invoked == Some(Params(body.prompt.value, body.imagePayload))
      && 1 <= x.calls <= Retry.DefaultRetries + 1
      && |x.delays| == x.calls - 1
    ensures x.reply.status in {200, 400, 500}
    ensures x.reply.status == 200 <==> x.reply.body.Generated?
    ensures x.reply.status == 500 ==> x.reply.body.error == InvokeFailed && x.reply.body.details.Some?
    ensures !PromptMissing(body) ==>
      x.calls == Retry.RetryDefault(bedrock).calls && x.delays == Retry.RetryDefault(bedrock).delays
    ensures !PromptMissing(body) && Retry.RetryDefault(bedrock).result.Thrown? ==>
      x.reply == Internal(Retry.RetryDefault(bedrock).result.message)
    ensures !PromptMissing(body) && Retry.RetryDefault(bedrock).result.Returned? && !body.expectJson ==>
      x.reply == Reply(200, Generated(Retry.RetryDefault(bedrock).result.value))
    ensures !PromptMissing(body) && Retry.RetryDefault(bedrock).result.Returned? && body.expectJson ==>
      var extracted := JsonExtract.ExtractAndParse(Retry.RetryDefault(bedrock).result.value, parse);
      && (extracted.Success? ==> x.reply == Reply(200, Generated(stringify(extracted.value))))
      && (extracted.Failure? ==> x.reply == Internal(extracted.error))
  {
    if PromptMissing(body) then
      Exchange(Reply(400, ErrorReply(PromptRequired, None)), None, 0, [])
    else
      var params := Params(body.prompt.value, body.imagePayload);
      var run := Retry.RetryDefault(bedrock);
      var reply :=
        match run.result
        case Thrown(_, message) => Internal(message)
        case Returned(text) =>
          if !body.expectJson then Reply(200, Generated(text))
          else
            match JsonExtract.ExtractAndParse(text, parse)
            case Success(v) => Reply(200, Generated(stringify(v)))
            case Failure(message) => Internal(message);
      Exchange(reply, Some(params), run.calls, run.delays)
  }

  /** The prompt text always travels last in the message, behind the image when there is one. */
  lemma PromptTravelsLast(body: GenerateBody, bedrock: nat -> Retry.Outcome<string>, parse: string -> Result<string, string>)
    requires !PromptMissing(body)
    ensures var x := Generate(body, bedrock, parse, (s: string) => s);
      var content := x.invoked.value.messages[0].content;
      && |x.invoked.value.messages| == 1
      && content[|content| - 1] == TextBlock(body.prompt.value)
      && (body.imagePayload.Some? <==> |content| == 2)
  {
  }

  /** The first answer with text, after `j` throttled calls, is relayed
      verbatim when no JSON is expected, after `j` back-off sleeps. */
  lemma PlainAnswerIsRelayed<J>(body: GenerateBody, bedrock: nat -> Retry.Outcome<string>, parse: string -> Result<J, string>, stringify: J -> string, j: nat)
    requires !PromptMissing(body) && !body.expectJson
    requires j <= Retry.DefaultRetries
    requires forall k :: 0 <= k < j ==> Retry.IsTransient(bedrock(k))
    requires bedrock(j).Returned?
    ensures var x := Generate(body, bedrock, parse, stringify);
      && x.reply == Reply(200, Generated(bedrock(j).value))
      && x.calls == j + 1 && x.delays == Retry.Backoff(Retry.DefaultDelay, j)
  {
    Retry.FirstSuccessIsReturned(bedrock, 0, Retry.DefaultRetries, Retry.DefaultDelay, j);
  }

  /** With a JSON answer expected, a first answer with text (after `j`
      throttled calls) that has no `{` before a `}` is a 500 carrying the
      extraction message, and the model is not called again. */
  lemma AnswerWithoutObjectIs500<J>(body: GenerateBody, bedrock: nat -> Retry.Outcome<string>, parse: string -> Result<J, string>, stringify: J -> string, j: nat)
    requires !PromptMissing(body) && body.expectJson
    requires j <= Retry.DefaultRetries
    requires forall k :: 0 <= k < j ==> Retry.IsTransient(bedrock(k))
    requires bedrock(j).Returned? && !JsonExtract.HasBraceSpan(bedrock(j).value)
    ensures var x := Generate(body, bedrock, parse, stringify);
      x.reply == Internal(JsonExtract.NoObjectMessage) && x.calls == j + 1
  {
    Retry.FirstSuccessIsReturned(bedrock, 0, Retry.DefaultRetries, Retry.DefaultDelay, j);
  }

  /** With a JSON answer expected, the object cut out of the first answer with
      text (after `j` throttled calls) is parsed and sent back re-serialised
      with 200. */
  lemma JsonAnswerIsReformatted<J>(body: GenerateBody, bedrock: nat -> Retry.Outcome<string>, parse: string -> Result<J, string>, stringify: J -> string, j: nat)
    requires !PromptMissing(body) && body.expectJson
    requires j <= Retry.DefaultRetries
    requires forall k :: 0 <= k < j ==> Retry.IsTransient(bedrock(k))
    requires bedrock(j).Returned? && JsonExtract.HasBraceSpan(bedrock(j).value)
    requires parse(JsonExtract.ExtractObjectText(bedrock(j).value).value).Success?
    ensures var x := Generate(body, bedrock, parse, stringify);
      var v := parse(JsonExtract.ExtractObjectText(bedrock(j).value).value).value;
      && x.reply == Reply(200, Generated(stringify(v)))
      && x.calls == j + 1 && x.delays == Retry.Backoff(Retry.DefaultDelay, j)
  {
    Retry.FirstSuccessIsReturned(bedrock, 0, Retry.DefaultRetries, Retry.DefaultDelay, j);
  }

  /** With a JSON answer expected, an object the parser rejects is a 500 whose
      details carry the parse-failure prefix and end with the rejected text,
      however many throttled calls came first. */
  lemma UnparsableObjectIs500<J>(body: GenerateBody, bedrock: nat -> Retry.Outcome<string>, parse: string -> Result<J, string>, stringify: J -> string, j: nat)
    requires !PromptMissing(body) && body.expectJson
    requires j <= Retry.DefaultRetries
    requires forall k :: 0 <= k < j ==> Retry.IsTransient(bedrock(k))
    requires bedrock(j).Returned? && JsonExtract.HasBraceSpan(bedrock(j).value)
    requires parse(JsonExtract.ExtractObjectText(bedrock(j).value).value).Failure?
    ensures var x := Generate(body, bedrock, parse, stringify);
      var raw := JsonExtract.ExtractObjectText(bedrock(j).value).value;
      && x.reply.status == 500 && x.reply.body.error == InvokeFailed
      && JsonExtract.IsPrefixOf(JsonExtract.ParseFailurePrefix, x.reply.body.details.value)
      && JsonExtract.IsSuffixOf(raw, x.reply.body.details.value)
      && x.calls == j + 1
  {
    Retry.FirstSuccessIsReturned(bedrock, 0, Retry.DefaultRetries, Retry.DefaultDelay, j);
  }

  /** An error that is not a capacity error is a 500 carrying its message at
      once: one call, no sleep. */
  lemma ThrownErrorIs500<J>(body: GenerateBody, bedrock: nat -> Retry.Outcome<string>, parse: string -> Result<J, string>, stringify: J -> string)
    requires !PromptMissing(body)
    requires bedrock(0).Thrown? && !Retry.IsCapacityError(bedrock(0).name)
    ensures var x := Generate(body, bedrock, parse, stringify);
      x.reply == Internal(bedrock(0).message) && x.calls == 1 && x.delays == []
  {
    Retry.NonTransientErrorIsRethrownAtOnce(bedrock, 0, Retry.DefaultRetries, Retry.DefaultDelay);
  }

  /** A model that stays throttled is called six times, 31 seconds of back-off
      are spent, and the client gets a 500 with the last error's message. */
  lemma ThrottledModelGives500<J>(body: GenerateBody, bedrock: nat -> Retry.Outcome<string>, parse: string -> Result<J, string>, stringify: J -> string)
    requires !PromptMissing(body)
    requires forall k :: Retry.IsTransient(bedrock(k))
    ensures var x := Generate(body, bedrock, parse, stringify);
      && x.reply == Internal(bedrock(5).message)
      && x.calls == 6
      && x.delays == [1000, 2000, 4000, 8000, 16000]
  {
    Retry.DefaultSchedule(bedrock);
  }
}

=== FILE: stepper.dfy ===
/**
 * The progress indicator shown above the review and result views
 * (components/Stepper.tsx): three steps joined by two connectors, each step
 * active, completed or neither according to the current analysis step.
 */
module Stepper {
  import opened Types

  /** The three visible steps, in order. */
  const VisibleSteps: seq<AnalysisStep> := [ReviewDescription, ReviewDfd, Results]

  /** The position of the current step among the visible ones; -1 before the first. */
  function StepIndex(s: AnalysisStep): (i: int)
    ensures -1 <= i <= 2
    ensures i == StepOrdinal(s) - 1
    ensures 0 <= i ==> VisibleSteps[i] == s
  {
    match s
    case Input => -1
    case ReviewDescription => 0
    case ReviewDfd => 1
    case Results => 2
  }

  /** What one step of the indicator shows. */
  datatype StepFlags = StepFlags(step: AnalysisStep, isActive: bool, isCompleted: bool)

  /** What the indicator shows: three steps and the colours of the two connectors
      between them (`true` for green). */
  datatype StepperView = StepperView(steps: seq<StepFlags>, connectorsGreen: seq<bool>)

  function Render(current: AnalysisStep): (v: StepperView)
    ensures |v.steps| == 3 && |v.connectorsGreen| == 2
    ensures forall i :: 0 <= i < 3 ==> v.steps[i].step == VisibleSteps[i]
    ensures forall i :: 0 <= i < 3 ==> (v.steps[i].isActive <==> i == StepIndex(current))
    ensures forall i :: 0 <= i < 3 ==> (v.steps[i].isCompleted <==> i < StepIndex(current))
    ensures forall i :: 0 <= i < 2 ==> (v.connectorsGreen[i] <==> i < StepIndex(current))
  {
    var active := StepIndex(current);
    StepperView(
      seq(3, i requires 0 <= i < 3 => StepFlags(VisibleSteps[i], i == active, i < active)),
      seq(2, i => i < active))
  }

  /** The index follows the step order strictly. */
  lemma StepIndexIsStrictlyMonotone(s: AnalysisStep, t: AnalysisStep)
    ensures StepOrdinal(s) < StepOrdinal(t) <==> StepIndex(s) < StepIndex(t)
  {
  }

  /** No step is both active and completed, and at most one step is active. */
  lemma ActiveAndCompletedExclusive(current: AnalysisStep)
    ensures var v := Render(current);
      && (forall i :: 0 <= i < 3 ==> !(v.steps[i].isActive && v.steps[i].isCompleted))
      && (forall i, j :: 0 <= i < j < 3 ==> !(v.steps[i].isActive && v.steps[j].isActive))
  {
  }

  /** The steps shown active or completed are exactly those the analysis has reached. */
  lemma ShownProgressMatchesStep(current: AnalysisStep)
    ensures var v := Render(current);
      forall i :: 0 <= i < 3 ==>
        (v.steps[i].isActive || v.steps[i].isCompleted <==> StepOrdinal(VisibleSteps[i]) <= StepOrdinal(current))
  {
  }

  /** At INPUT nothing is active or completed; at RESULTS the first two steps are
      completed, the last is active and both connectors are green. */
  lemma EndPoints()
    ensures var v := Render(Input);
      forall i :: 0 <= i < 3 ==> !v.steps[i].isActive && !v.steps[i].isCompleted
    ensures var v := Render(Results);
      v.steps[0].isCompleted && v.steps[1].isCompleted && v.steps[2].isActive && !v.steps[2].isCompleted
      && v.connectorsGreen == [true, true]
  {
  }
}

=== FILE: threat_card.dfy ===
/**
 * The presentation decisions of one threat card
 * (components/ThreatAnalysisCard.tsx). Style class strings and icon
 * components are represented by closed tags.
 */
module ThreatCard {
  import opened Wrappers
  import opened Types

  /** The colour family of a category chip. */
  datatype Palette = Yellow | Orange | Pink | Red | Purple | Rose | Gray

  datatype Icon = UserIcon | KeyRoundIcon | FileLockIcon | ShieldAlertIcon | WifiOffIcon | ChevronsUpIcon | HelpCircleIcon

  /** The card frame style. */
  datatype CardStyle = AcceptedStyle | RejectedStyle | NeutralStyle

  datatype BadgeTone = GreenTone | RedTone

  /** A status badge; its caption is the translation lookup, absent for a
      status outside the enumeration. */
  datatype Badge = Badge(tone: BadgeTone, caption: Option<string>)

  /** The call a button makes: `onStatusChange(threatId, status)`. */
  datatype Action = StatusChange(threatId: string, status: ThreatStatus)

  datatype Card = Card(
    style: CardStyle,
    title: string,
    badge: Option<Badge>,
    categoryColor: Palette,
    categoryIcon: Icon,
    categoryLabel: Option<string>,
    description: string,
    mitigation: string,
    controls: seq<Action>)

  /** The default branch of the category switches. */
  const DefaultPalette := Gray
  const DefaultIcon := HelpCircleIcon
  /** The default branch of the status switch. */
  const DefaultStatusStyle := NeutralStyle

  /**
   * The chip colour, chosen by a switch on the raw category string: the six
   * STRIDE values have their own colour, and `Unknown` and every string
   * outside the enumeration take the default.
   */
  function CategoryColor(raw: string): (p: Palette)
    ensures p == DefaultPalette <==> CategoryOf(raw) in {None, Some(Unknown)}
  {
    if raw == StrideValue(Spoofing) then Yellow
    else if raw == StrideValue(Tampering) then Orange
    else if raw == StrideValue(Repudiation) then Pink
    else if raw == StrideValue(InformationDisclosure) then Red
    else if raw == StrideValue(DenialOfService) then Purple
    else if raw == StrideValue(ElevationOfPrivilege) then Rose
    else DefaultPalette
  }

  /** The chip icon, by the same switch as the colour. */
  function CategoryIcon(raw: string): (i: Icon)
    ensures i == DefaultIcon <==> CategoryOf(raw) in {None, Some(Unknown)}
  {
    if raw == StrideValue(Spoofing) then UserIcon
    else if raw == StrideValue(Tampering) then KeyRoundIcon
    else if raw == StrideValue(Repudiation) then FileLockIcon
    else if raw == StrideValue(InformationDisclosure) then ShieldAlertIcon
    else if raw == StrideValue(DenialOfService) then WifiOffIcon
    else if raw == StrideValue(ElevationOfPrivilege) then ChevronsUpIcon
    else DefaultIcon
  }

  /** The card frame style, by a switch on the raw status string: the
      decided statuses each have their own style, and `Pending` shares the
      default branch with every string outside the enumeration. */
  function StatusStyle(raw: string): (st: CardStyle)
    ensures st == DefaultStatusStyle <==> StatusOf(raw) in {None, Some(Pending)}
    ensures st == AcceptedStyle <==> StatusOf(raw) == Some(Accepted)
  {
    if raw == StatusValue(Accepted) then AcceptedStyle
    else if raw == StatusValue(Rejected) then RejectedStyle
    else DefaultStatusStyle
  }

  /**
   * The card for one threat. A pending threat gets the reject and accept
   * buttons, in that order, each reporting the card's own id; any other
   * status gets a badge instead, green when accepted and red otherwise.
   * A status outside the enumeration therefore gets a red badge with no
   * caption and no buttons, so it can never be decided from the card.
   */
  function Render(t: Threat): (card: Card)
    ensures card.controls != [] <==> StatusOf(t.status) == Some(Pending)
    ensures card.badge.Some? <==> StatusOf(t.status) != Some(Pending)
    ensures card.badge.Some? ==> (card.badge.value.tone == GreenTone <==> StatusOf(t.status) == Some(Accepted))
    ensures card.badge.Some? ==> card.badge.value.caption == StatusLabelOf(t.status)
    ensures StatusOf(t.status).None? ==>
      && card.controls == [] && card.style == DefaultStatusStyle
      && card.badge == Some(Badge(RedTone, None))
    ensures forall a :: a in card.controls ==> a.threatId == t.threatId && a.status != Pending
    ensures card.controls != [] ==> card.controls == [StatusChange(t.threatId, Rejected), StatusChange(t.threatId, Accepted)]
    ensures card.categoryLabel.None? ==> card.categoryColor == DefaultPalette && card.categoryIcon == DefaultIcon
  {
    var isPending := t.status == StatusValue(Pending);
    Card(
      StatusStyle(t.status),
      t.threatName,
      if !isPending then Some(Badge(if t.status == StatusValue(Accepted) then GreenTone else RedTone, StatusLabelOf(t.status))) else None,
      CategoryColor(t.strideCategory),
      CategoryIcon(t.strideCategory),
      CategoryLabel(t.strideCategory),
      t.description,
      t.mitigation,
      if isPending then [StatusChange(t.threatId, Rejected), StatusChange(t.threatId, Accepted)] else [])
  }

  /** A status written in Portuguese, as the prompt's language invites, or
      in lower case is no value of the enumeration: the card offers no way
      to decide the threat. */
  lemma TranslatedStatusCannotBeDecided(t: Threat)
    requires t.status in {"Pendente", "pending", "Aceito", "Rejeitado"}
    ensures Render(t).controls == []
    ensures Render(t).badge == Some(Badge(RedTone, None))
  {
  }

  /** Distinct members of the enumeration get distinct colours and distinct icons. */
  lemma CategoryPresentationInjective(c: StrideCategory, d: StrideCategory)
    requires c != d
    ensures CategoryColor(StrideValue(c)) != CategoryColor(StrideValue(d))
    ensures CategoryIcon(StrideValue(c)) != CategoryIcon(StrideValue(d))
  {
    CategoryOfInvertsValue(c);
    CategoryOfInvertsValue(d);
  }

  /**
   * The category names the threat-modelling prompt asks for with
   * underscores are not values of the enumeration, so a threat carrying one
   * gets the grey chip, the help icon and no label text.
   */
  lemma PromptCategoryNamesFallBack(t: Threat)
    requires t.strideCategory in {"Information_Disclosure", "Denial_of_Service", "Elevation_of_Privilege"}
    ensures Render(t).categoryColor == DefaultPalette
    ensures Render(t).categoryIcon == DefaultIcon
    ensures Render(t).categoryLabel == None
  {
    assert CategoryOf(t.strideCategory).None?;
    assert Render(t).categoryLabel == CategoryLabel(t.strideCategory);
  }
}

=== FILE: types.dfy ===
/**
 * The closed enumerations and records of the application, with the string
 * value each enumeration member carries at run time and the total
 * Portuguese translation maps used by the interface and the PDF report.
 */
module Types {
  import opened Wrappers

  /** The six STRIDE categories plus the fallback `Unknown`. */
  datatype StrideCategory =
    | Spoofing | Tampering | Repudiation | InformationDisclosure
    | DenialOfService | ElevationOfPrivilege | Unknown

  datatype ApplicationType = LogicalApp | LogicalSub | Bash | Android | Web | Api

  datatype DataClassification = Public | Internal | Confidential | Restricted | PciDss

  /** The steps of an analysis, in pipeline order. */
  datatype AnalysisStep = Input | ReviewDescription | ReviewDfd | Results

  datatype ThreatStatus = Pending | Accepted | Rejected

  /** A threat as the model's JSON answer carries it. `strideCategory` and
      `status` are the raw strings of the answer: nothing checks them against
      `StrideCategory` and `ThreatStatus`, so either may hold a value outside
      its enumeration. */
  datatype Threat = Threat(
    threatId: string,
    threatName: string,
    description: string,
    strideCategory: string,
    mitigation: string,
    status: string)

  datatype AnalysisResult = AnalysisResult(threats: seq<Threat>)

  /** A saved analysis as the dashboard hands it back. `imageUrl` is absent
      when the record has no stored image. */
  datatype Analysis = Analysis(
    id: string,
    userId: string,
    createdAt: int,
    title: string,
    appType: ApplicationType,
    dataClassification: DataClassification,
    originalDescription: string,
    imageFileName: Option<string>,
    imageUrl: Option<string>,
    aiDescription: string,
    dfdDescription: string,
    analysisResult: AnalysisResult)

  /** The numeric value of a step: the enumeration is numeric, starting at 0. */
  function StepOrdinal(s: AnalysisStep): (n: nat)
    ensures n <= 3
  {
    match s
    case Input => 0
    case ReviewDescription => 1
    case ReviewDfd => 2
    case Results => 3
  }

  /** The step whose numeric value is `n`, if any. */
  function StepOfOrdinal(n: int): (r: Option<AnalysisStep>)
    ensures r.Some? <==> 0 <= n <= 3
  {
    if n == 0 then Some(Input)
    else if n == 1 then Some(ReviewDescription)
    else if n == 2 then Some(ReviewDfd)
    else if n == 3 then Some(Results)
    else None
  }

  /** The numeric encoding of the steps is a bijection onto 0..3. */
  lemma StepOrdinalRoundTrip(s: AnalysisStep, n: int)
    ensures StepOfOrdinal(StepOrdinal(s)) == Some(s)
    ensures 0 <= n <= 3 ==> StepOrdinal(StepOfOrdinal(n).value) == n
  {
  }

  /** The step order is the numeric order: INPUT = 0 < ... < RESULTS = 3. */
  lemma StepOrderIsStrict()
    ensures StepOrdinal(Input) == 0
    ensures StepOrdinal(Input) < StepOrdinal(ReviewDescription) < StepOrdinal(ReviewDfd) < StepOrdinal(Results)
    ensures StepOrdinal(Results) == 3
  {
  }

  function StrideValue(c: StrideCategory): string {
    match c
    case Spoofing => "Spoofing"
    case Tampering => "Tampering"
    case Repudiation => "Repudiation"
    case InformationDisclosure => "Information Disclosure"
    case DenialOfService => "Denial of Service"
    case ElevationOfPrivilege => "Elevation of Privilege"
    case Unknown => "Unknown"
  }

  function AppTypeValue(a: ApplicationType): string {
    match a
    case LogicalApp => "Logical Application"
    case LogicalSub => "Logical Application Subcomponent"
    case Bash => "Bash"
    case Android => "Android App"
    case Web => "Web"
    case Api => "API"
  }

  function ClassificationValue(d: DataClassification): string {
    match d
    case Public => "Public"
    case Internal => "Internal"
    case Confidential => "Confidential"
    case Restricted => "Restricted"
    case PciDss => "PCI-DSS"
  }

  function StatusValue(s: ThreatStatus): string {
    match s
    case Pending => "Pending"
    case Accepted => "Accepted"
    case Rejected => "Rejected"
  }

  /** `s` ends with `t`. */
  predicate IsSuffix(t: string, s: string) {
    |t| <= |s| && s[|s| - |t|..] == t
  }

  /** No application-type value ends with another one. The request builders
      rely on this to keep the prompts they render unambiguous. */
  lemma AppTypeValuesSuffixFree(a: ApplicationType, b: ApplicationType)
    requires IsSuffix(AppTypeValue(a), AppTypeValue(b))
    ensures a == b
  {
  }

  /** No data-classification value ends with another one. */
  lemma ClassificationValuesSuffixFree(a: DataClassification, b: DataClassification)
    requires IsSuffix(ClassificationValue(a), ClassificationValue(b))
    ensures a == b
  {
  }

  // Translation maps. Each is a `Record` over its enumeration in the source,
  // so each must hold every member as a key.

  const StrideCategoryTranslations: map<StrideCategory, string> := map[
    Spoofing := "Falsificação",
    Tampering := "Adulteração",
    Repudiation := "Repúdio",
    InformationDisclosure := "Divulgação de Informação",
    DenialOfService := "Negação de Serviço",
    ElevationOfPrivilege := "Elevação de Privilégio",
    Unknown := "Desconhecido"]

  const ApplicationTypeTranslations: map<ApplicationType, string> := map[
    LogicalApp := "Aplicação Lógica",
    LogicalSub := "Subcomponente de Aplicação Lógica",
    Bash := "Script Bash",
    Android := "Aplicativo Android",
    Web := "Web",
    Api := "API"]

  const DataClassificationTranslations: map<DataClassification, string> := map[
    Public := "Público",
    Internal := "Interno",
    Confidential := "Confidencial",
    Restricted := "Restrito",
    PciDss := "PCI-DSS"]

  const ThreatStatusTranslations: map<ThreatStatus, string> := map[
    Pending := "Pendente",
    Accepted := "Aceito",
    Rejected := "Rejeitado"]

  /** Every translation map is total over its enumeration, so a lookup by a member never yields `undefined`. */
  lemma TranslationsAreTotal()
    ensures forall c: StrideCategory :: c in StrideCategoryTranslations
    ensures forall a: ApplicationType :: a in ApplicationTypeTranslations
    ensures forall d: DataClassification :: d in DataClassificationTranslations
    ensures forall s: ThreatStatus :: s in ThreatStatusTranslations
  {
    forall c: StrideCategory ensures c in StrideCategoryTranslations {
      match c
      case Spoofing =>
      case Tampering =>
      case Repudiation =>
      case InformationDisclosure =>
      case DenialOfService =>
      case ElevationOfPrivilege =>
      case Unknown =>
    }
    forall a: ApplicationType ensures a in ApplicationTypeTranslations {
      match a
      case LogicalApp =>
      case LogicalSub =>
      case Bash =>
      case Android =>
      case Web =>
      case Api =>
    }
    forall d: DataClassification ensures d in DataClassificationTranslations {
      match d
      case Public =>
      case Internal =>
      case Confidential =>
      case Restricted =>
      case PciDss =>
    }
    forall s: ThreatStatus ensures s in ThreatStatusTranslations {
      match s
      case Pending =>
      case Accepted =>
      case Rejected =>
    }
  }

  function StrideLabel(c: StrideCategory): string
  {
    TranslationsAreTotal();
    StrideCategoryTranslations[c]
  }

  /** The enumeration member whose run-time value is `raw`, if there is one. */
  function CategoryOf(raw: string): (c: Option<StrideCategory>)
    ensures c.Some? ==> StrideValue(c.value) == raw
    ensures c.None? <==> forall k: StrideCategory :: StrideValue(k) != raw
  {
    if raw == "Spoofing" then Some(Spoofing)
    else if raw == "Tampering" then Some(Tampering)
    else if raw == "Repudiation" then Some(Repudiation)
    else if raw == "Information Disclosure" then Some(InformationDisclosure)
    else if raw == "Denial of Service" then Some(DenialOfService)
    else if raw == "Elevation of Privilege" then Some(ElevationOfPrivilege)
    else if raw == "Unknown" then Some(Unknown)
    else None
  }

  /** Reading a member's value back gives the member: the values are distinct. */
  lemma CategoryOfInvertsValue(c: StrideCategory)
    ensures CategoryOf(StrideValue(c)) == Some(c)
  {
  }

  /**
   * The lookup `StrideCategoryTranslations[raw]` on the raw string of a
   * threat: the translation of the member whose value `raw` is, and
   * `undefined` (here `None`) for any other string.
   */
  function CategoryLabel(raw: string): (l: Option<string>)
    ensures l.None? <==> forall k: StrideCategory :: StrideValue(k) != raw
    ensures forall k: StrideCategory :: StrideValue(k) == raw ==> l == Some(StrideLabel(k))
  {
    match CategoryOf(raw)
    case Some(c) => Some(StrideLabel(c))
    case None => None
  }

  function AppTypeLabel(a: ApplicationType): string
  {
    TranslationsAreTotal();
    ApplicationTypeTranslations[a]
  }

  function ClassificationLabel(d: DataClassification): string
  {
    TranslationsAreTotal();
    DataClassificationTranslations[d]
  }

  function StatusLabel(s: ThreatStatus): string
  {
    TranslationsAreTotal();
    ThreatStatusTranslations[s]
  }

  /** The status whose run-time value is `raw`, if there is one. */
  function StatusOf(raw: string): (s: Option<ThreatStatus>)
    ensures s.Some? ==> StatusValue(s.value) == raw
    ensures s.None? <==> forall k: ThreatStatus :: StatusValue(k) != raw
  {
    if raw == "Pending" then Some(Pending)
    else if raw == "Accepted" then Some(Accepted)
    else if raw == "Rejected" then Some(Rejected)
    else None
  }

  /** Reading a status's value back gives the status. */
  lemma StatusOfInvertsValue(s: ThreatStatus)
    ensures StatusOf(StatusValue(s)) == Some(s)
  {
  }

  /**
   * The lookup `ThreatStatusTranslations[raw]` on the raw status of a
   * threat: the translation of the status whose value `raw` is, and
   * `undefined` (here `None`) for any other string.
   */
  function StatusLabelOf(raw: string): (l: Option<string>)
    ensures l.None? <==> forall k: ThreatStatus :: StatusValue(k) != raw
    ensures forall k: ThreatStatus :: StatusValue(k) == raw ==> l == Some(StatusLabel(k))
  {
    match StatusOf(raw)
    case Some(k) => Some(StatusLabel(k))
    case None => None
  }

  /** Distinct statuses are shown with distinct labels. */
  lemma StatusLabelsDistinct(s: ThreatStatus, t: ThreatStatus)
    requires s != t
    ensures StatusLabel(s) != StatusLabel(t)
  {
    var a, b := StatusLabel(s), StatusLabel(t);
    assert a[0] != b[0] || a[|a| - 1] != b[|b| - 1];
  }
}

=== FILE: wrappers.dfy ===
/** Failure-compatible wrappers shared by every module of the model. */
module Wrappers {

  /** An optional value: JavaScript's `null` / `undefined` versus a present value. */
  datatype Option<+T> = None | Some(value: T) {
    function GetOr(default: T): T {
      match this
      case Some(v) => v
      case None => default
    }
  }

  /** The outcome of an operation that may throw. */
  datatype Result<+R, +E> = Success(value: R) | Failure(error: E) {
    predicate IsFailure() {
      Failure?
    }

    function PropagateFailure<U>(): Result<U, E>
      requires Failure?
    {
      Failure(error)
    }

    function Extract(): R
      requires Success?
    {
      value
    }
  }
}
